=== FILE: README.md ===
# Library circulation backend — a Dafny model

This project models the request handlers at the heart of a school library's
backend:

- the borrow lifecycle:
  - a user requests a book, and a librarian approves or rejects the request;
  - a user can also borrow directly, without a request;
  - a return freezes the overdue fine on the record;
  - listings show the live fine of unreturned rows;
- the fine engine: 10 ETB for every started day past the due date;
- fine payment:
  - a gateway checkout whose callback settles the borrow;
  - a mobile-money path that settles the borrow at once;
- user administration: creation with a temporary password, updates under the
  admin-protection rules, deletion, and the user listing;
- the account state machine: first login, a one-time first password, login
  gating, and password change;
- news posts with role fan-out and per-user read tracking.

Everything is modelled over one immutable store value (`Store.Store`). It holds:

- the users, in insertion order;
- the books, keyed by id, each with a `copies` count;
- the borrow records;
- the payment records;
- the news items.

Each handler is a pure function from a store and the request fields to a
`Step`: the reply (`Ok(value)` or `Err(failure)`, where `Common.Code` maps a
failure to its HTTP status) together with the store the handler leaves behind.
Read-only handlers return only the reply.

Some things the handlers get from outside become parameters:

- the clock: `now`, in integer milliseconds;
- generated identifiers: `txRef`, `newsId`;
- the payment gateway's answer;
- the store's free-text search: a predicate `hit`.

A store lookup (`findOne`) is the first matching record in insertion order.
The one exception is the rejected request that the cooldown looks at. The
handler does not say which of several it gets, so the model leaves that choice
open with a `pick` parameter: every value of `pick` is a possible run.

Modules:

| module | file | what it covers |
|---|---|---|
| `Common` | common.dfy | results and failures, first-match lookup, filtering, paging |
| `Ordering` | ordering.dfy | the descending sort with missing values last |
| `Fine` | fine.dfy | exact ceiling division and the fine formula |
| `Store` | store.dfy | the documents, roles, password hashing, `$inc` on copies |
| `Borrows` | borrows.dfy | request, cooldown, approve/reject, borrow, return, listings |
| `Payments` | payments.dfy | fine quote, checkout, callback, mobile-money payment |
| `Users` | users.dfy | create, update, delete, list users |
| `Auth` | auth.dfy | first login, first password, login, password change |
| `News` | news.dfy | create, list, unread count, mark all read |
| `Lifecycle` | lifecycle.dfy | invariants kept across handlers and multi-step runs |

## Model

| member | source | states |
|---|---|---|
| Common.FirstIndex | backend/src/controllers/borrowController.js:62-65 | a lookup returns the first record satisfying the query, and none exactly when no record does |
| Common.Code | backend/src/controllers/authController.js:95-133 | the status a failure is answered with: 400, 401, 403, 404 or 500; 500 exactly for the gateway and the store failing, 401 exactly for wrong credentials and a wrong old password, 400 for the cooldown and a live request |
| Common.Filter | backend/src/controllers/borrowController.js:314-316 | a store query returns exactly the documents that are in the collection and satisfy the filter, and never more documents than the collection holds |
| Common.FirstIndexAppend | backend/src/controllers/authController.js:21-24 | a record appended after records that all fail a lookup is the one that lookup finds |
| Common.FilterCount | backend/src/controllers/borrowController.js:314-316 | a store query keeps every document satisfying the filter as often as it occurs and drops every other one |
| Common.FilterAppend | backend/src/controllers/borrowController.js:314-316 | a store query keeps store order: filtering a concatenation concatenates the filtered parts |
| Common.JsLength | backend/src/controllers/newsController.js:14 | `.length` counts UTF-16 code units: the number of characters plus one more for each character outside the Basic Multilingual Plane, so between the number of characters and twice it, and equal to it when every character is in that plane |
| Common.JsLengthAppend | backend/src/controllers/newsController.js:14 | the length of joined strings is the sum of their lengths |
| Common.JsLengthExamples | backend/src/controllers/authController.js:53 | three emoji are six code units long, "abc" three |
| Common.Page | backend/src/controllers/borrowController.js:318-319 | a page skips (page−1)·limit rows and returns at most \|limit\| rows, taken in order; a negative skip is refused by the store; limit 0 means no limit; the page holds exactly min(\|limit\|, what is left after the skip) rows, all that is left when limit is 0 |
| Ordering.SortDesc | backend/src/controllers/borrowController.js:317 | the listing order is a permutation of the matches, sorted descending by the primary key, then by the secondary key, with missing values last |
| Fine.CeilDiv | backend/src/controllers/borrowController.js:48 | `Math.ceil(a / b)` computed exactly on integers: the unique q with (q−1)·b < a ≤ q·b |
| Fine.DaysLate | backend/src/controllers/borrowController.js:47-48 | the started days late: 0 when not late, otherwise the least d ≥ 1 whose d days cover the lateness |
| Fine.CalculateFine | backend/src/controllers/borrowController.js:44-50 | the fine is a non-negative multiple of 10; it is 0 unless late and then at least 10, and fine/10 is the number of started days late |
| Fine.FinePerStartedDay | backend/src/controllers/borrowController.js:44-50 | lateness in (k days, k+1 days] costs exactly 10·(k+1) |
| Fine.FineMonotone | backend/src/controllers/borrowController.js:44-50 | the fine never decreases as time passes |
| Fine.FineExamples | backend/src/controllers/borrowController.js:44-50 | 0 at and before the due time, 10 at 1 ms late, 20 at 25 h late, 30 at exactly 3 days late |
| Store.ParseRole | backend/src/controllers/userController.js:13 | only the four role names are accepted, each naming its role |
| Store.RoleNameRoundTrip | backend/src/controllers/userController.js:13 | parsing a role's name gives the role back |
| Store.CompareOwnHash | backend/src/controllers/authController.js:114 | a password matches its own hash and no other password's hash |
| Store.AddCopies | backend/src/controllers/borrowController.js:175-178 | `$inc` on copies changes that book's count by exactly delta and leaves every other book, and an absent book, as it was |
| Borrows.ChosenRejection | backend/src/controllers/borrowController.js:88-92 | the cooldown looks at some rejected record of this user for this book, and at none exactly when there is none |
| Borrows.CooldownFailure | backend/src/controllers/borrowController.js:94-107 | blocked exactly while less than 24 h have passed since the rejection; canRequestAfter is rejection + 24 h; hoursLeft is the remaining time rounded up to whole hours |
| Borrows.CooldownHoursInRange | backend/src/controllers/borrowController.js:99-100 | for a rejection between 0 and 24 h old, hoursLeft lies in [1, 24] |
| Borrows.RequestBook | backend/src/controllers/borrowController.js:55-138 | errors leave the store unchanged, in the order validation, unknown user, unknown book, live request (reporting the status of the user's first live record), cooldown (with the chosen rejection's hours left and canRequestAfter, whenever that rejection is under 24 h old); success exactly when every guard passes, appending one pending record carrying the form's user, book and due date and the book's title, with fine 0 and every decision field empty; copies never change; availability reports copies > 0 |
| Borrows.FindPending | backend/src/controllers/borrowController.js:150-154 | the decision acts on the first pending record with that id (no earlier record is a pending one with that id), and on none when no such record exists |
| Borrows.ApproveRequest | backend/src/controllers/borrowController.js:143-200 | acts only on a pending record; approve succeeds exactly when the book has copies, sets status borrowed with approvedAt = borrowedAt = now, and takes exactly one copy, and fails with no copies otherwise; reject sets status rejected with the given reason or "Request rejected" and keeps copies; no other record changes |
| Borrows.BorrowBook | backend/src/controllers/borrowController.js:205-252 | fails in order with invalid, unknown user, unknown book, already borrowing (the user has any record with no return time, whatever its status) and no copies; success appends one record carrying the form's user, book and due date and the book's title, without status, unreturned, fine 0, with no approval or rejection, and takes exactly one copy |
| Borrows.FindLoan | backend/src/controllers/borrowController.js:263-268 | the return acts on the first unreturned record of this user for this book: no earlier record is one |
| Borrows.ReturnBook | backend/src/controllers/borrowController.js:257-288 | not found without an unreturned record; otherwise it sets returnedAt = now, stores the fine owed now and replies with that same fine, and puts exactly one copy back |
| Borrows.ReturnedFineIsFrozen | backend/src/controllers/borrowController.js:323-326 | once returned, a record shows the fine frozen at the return in every later listing |
| Borrows.DisplayFine | backend/src/controllers/borrowController.js:323-326 | a returned row shows its frozen fine and an unreturned row the fine owed now |
| Borrows.Enrich | backend/src/controllers/borrowController.js:323-326 | enrichment changes each row's fine alone, row by row |
| Borrows.Selected | backend/src/controllers/borrowController.js:298-312 | the selection is exactly the records matching the search and, when given, the exact status |
| Borrows.Matching | backend/src/controllers/borrowController.js:314-317 | the matching records, each as often as it is stored (a permutation of the selection), newest first, by borrow time and then request time |
| Borrows.PageOfSortedIsSorted | backend/src/controllers/borrowController.js:314-326 | a page of a newest-first sequence is still newest first after the fine is enriched |
| Borrows.PageRowsAreShown | backend/src/controllers/borrowController.js:314-326 | every row of a window of matching records, once its fine is enriched, is a matching store record shown with its display fine |
| Borrows.ListBorrows | backend/src/controllers/borrowController.js:293-334 | a negative skip fails with the store's refusal (500), and only then; total counts every match; the rows are the page's window of the sorted matches, each with its display fine, newest first, exactly as many as the window of that many matches holds (min(\|limit\|, matches after the skip)) |
| Borrows.GetBorrowByUser | backend/src/controllers/borrowController.js:339-359 | the first unreturned record of the caller in store order, with the fine owed now; not found when there is none |
| Payments.PaymentFine | backend/src/controllers/paymentController.js:7-13 | the payment handlers' copy of the fine formula agrees with the borrow handlers' on every input |
| Payments.GetFine | backend/src/controllers/paymentController.js:15-34 | 400 without userId or username, 404 without an unreturned borrow, otherwise the fine owed now on the caller's first unreturned borrow and its id |
| Payments.InitPayment | backend/src/controllers/paymentController.js:36-76 | a missing or non-positive amount or a missing borrow is refused before any effect; a gateway failure writes nothing; success inserts exactly one pending gateway payment |
| Payments.Settle | backend/src/controllers/paymentController.js:96-100 | a settled borrow has fine 0, status returned and a return time, and keeps its identity |
| Payments.SettleBorrow | backend/src/controllers/paymentController.js:93-110 | a settlement rewrites the borrow with that id and puts one copy back; no such borrow means no change |
| Payments.FindPayment | backend/src/controllers/paymentController.js:84-90 | the callback acts on the first payment with that reference: no earlier payment carries it |
| Payments.VerifyPayment | backend/src/controllers/paymentController.js:78-118 | 400 without a reference, 404 for an unknown one; the payment becomes completed exactly when the report is "success", otherwise failed with no borrow or copy touched; success settles the borrow |
| Payments.AllDigits | backend/src/controllers/paymentController.js:126 | true exactly when every character is an ASCII digit |
| Payments.MobileValid | backend/src/controllers/paymentController.js:126-128 | a mobile number is accepted exactly when it is 10 characters: "09" and then 8 ASCII digits |
| Payments.InitTelebirrPayment | backend/src/controllers/paymentController.js:120-177 | bad fields are refused before any write; otherwise a completed payment is recorded first, and then the caller's borrow with that id is settled with one copy back, or the reply is not found with the payment kept |
| Payments.ReplayedSuccessReturnsCopyTwice | backend/src/controllers/paymentController.js:92-110 | replaying a success callback puts the borrow's copy back a second time |
| Payments.CheckoutThenSuccessSettles | backend/src/controllers/paymentController.js:60-110 | a checkout under a fresh reference followed by its success callback completes the new payment and settles the named borrow exactly as a direct settlement would |
| Users.View | backend/src/controllers/userController.js:45-48 | a reply carries the user's id, name, username, role, department, status, passwordChanged and createdAt, and no password hash |
| Users.Views | backend/src/controllers/userController.js:102 | a listing shows every user without the password hash, in order |
| Users.CreateUser | backend/src/controllers/userController.js:18-55 | a name under 2 or a username under 3 UTF-16 code units, or a bad role or status, is refused; a taken id or username fails and inserts nothing; success appends one user with the given fields, status active unless given, passwordChanged false and the hash of "temp123" |
| Users.ApplyPatch | backend/src/controllers/userController.js:155-159 | each supplied field (name, username, role, department, status) takes the supplied value, each absent one keeps its value, and the id, password, passwordChanged and createdAt are kept |
| Users.FindUserById | backend/src/controllers/userController.js:133-134 | the first user with that id (no earlier user has it), and none exactly when no user has it |
| Users.UpdateUser | backend/src/controllers/userController.js:125-167 | name and username lengths counted in UTF-16 code units; an admin's role cannot leave admin and an admin cannot be deactivated (403, no change); a new username held by another user fails with UsernameTaken (400) once the admin guards pass; otherwise only the supplied fields of that user change |
| Users.DeleteUser | backend/src/controllers/userController.js:172-190 | 404 for an unknown id and 403 for an admin; otherwise exactly that user is removed and the others stay in order |
| Users.CreateUserKeepsUnique | backend/src/controllers/userController.js:25-31 | creation keeps ids and usernames unique |
| Users.UpdateUserKeepsUnique | backend/src/controllers/userController.js:146-153 | an update keeps ids and usernames unique |
| Users.DeleteUserKeepsUnique | backend/src/controllers/userController.js:172-190 | a deletion keeps ids and usernames unique |
| Users.SelectedUsers | backend/src/controllers/userController.js:84-95 | the selection is exactly the users matching the search and, when given, the role |
| Users.GetUsers | backend/src/controllers/userController.js:79-112 | a negative skip fails with the store's refusal (500), and only then; total counts every match; the rows are the page's window of the matches in store order, without password hashes, all of the given role, exactly as many as the window of that many matches holds |
| Auth.FindAccount | backend/src/controllers/authController.js:21-24 | the first user with both this username and this id: no earlier user has both |
| Auth.FirstLogin | backend/src/controllers/authController.js:15-45 | 404 unless a user matches both username and id; refused once the password was changed; otherwise a first-change grant for that user |
| Auth.ChangePassword | backend/src/controllers/authController.js:59-85 | needs a new password of at least 6 UTF-16 code units confirmed twice (400 otherwise); an unknown username and id pair gets UserNotFound (404); a found account whose password was already changed gets PasswordAlreadySet (400); otherwise stores the new hash and sets passwordChanged |
| Auth.FindByUsername | backend/src/controllers/authController.js:101 | the first user with that username: no earlier user has it |
| Auth.Login | backend/src/controllers/authController.js:95-133 | checks in order: unknown user 401, deactivated non-admin 403, password not set 403, wrong password 401; an account that is active or an admin (a deactivated admin included), has set its password and gives it gets a session with its id, name and role, and no other account does |
| Auth.ChangePasswordAfterLogin | backend/src/controllers/authController.js:146-175 | needs a new password of at least 6 UTF-16 code units confirmed twice; the old password must match (401 otherwise); only the hash changes and passwordChanged is untouched |
| Auth.NewAccountMustSetPassword | backend/src/controllers/authController.js:101-112 | a freshly created account passes first login and cannot log in with its temporary password |
| Auth.FirstPasswordIsOneShot | backend/src/controllers/authController.js:70-78 | after the first password is set, first login and the first-password form are refused and the new password logs in |
| Auth.ChangedPasswordReplacesOld | backend/src/controllers/authController.js:146-175 | after a password change the old password no longer logs in, and the new one logs in for an account that could log in before |
| Auth.EmojiPasswordAccepted | backend/src/controllers/authController.js:140 | a password of three emoji meets the 6-unit minimum |
| News.IsSpace | backend/src/controllers/newsController.js:14 | what `trim` treats as white space: only characters of the Basic Multilingual Plane, and among ASCII exactly the blank, tab, line feed, vertical tab, form feed and carriage return |
| News.TextStart | backend/src/controllers/newsController.js:14 | the text starts at the first position that holds no white space: everything skipped is white space, and the position reached is the end or not white space |
| News.TextEnd | backend/src/controllers/newsController.js:14 | the text ends after the last character that is no white space: everything cut is white space, and the last kept character is not |
| News.Trim | backend/src/controllers/newsController.js:22 | the text is a slice of the input with only white space cut off either side, and neither starts nor ends with white space |
| News.TrimIdempotent | backend/src/controllers/newsController.js:22 | trimming a trimmed text changes nothing |
| News.Audience | backend/src/controllers/newsController.js:21 | "all" reaches exactly librarian, teacher and student, three entries and never admin; any other role reaches itself alone |
| News.CreateNews | backend/src/controllers/newsController.js:11-34 | a missing role or a text shorter than 5 UTF-16 code units after trimming is refused with no change; otherwise one item is added with the trimmed text, the audience and an empty read list |
| News.EmojiPostAccepted | backend/src/controllers/newsController.js:14 | a post of three emoji is long enough to be accepted |
| News.CountUnread | backend/src/controllers/newsController.js:73-76 | the count is the number of items for the role whose read list lacks the user |
| News.CountUnreadZero | backend/src/controllers/newsController.js:73-76 | the count is zero exactly when no item for the role lacks the user in its read list |
| News.GetUnreadCount | backend/src/controllers/newsController.js:63-83 | needs role and userId; replies with the number of items for the role the user has not read, zero exactly when there are none |
| News.AddToSet | backend/src/controllers/newsController.js:94 | the user is in the read list afterwards, which otherwise keeps its members, and nothing is appended when already there |
| News.MarkAll | backend/src/controllers/newsController.js:92-95 | every item gets the user added to its read list and nothing else changes |
| News.MarkNewsAsRead | backend/src/controllers/newsController.js:85-102 | needs userId; adds the user to the read list of every item, whatever its audience, and changes nothing else |
| News.AddToSetNoDuplicates | backend/src/controllers/newsController.js:94 | a read list without duplicates stays without duplicates |
| News.MarkNewsAsReadIdempotent | backend/src/controllers/newsController.js:92-95 | marking all read twice is the same as marking once |
| News.MarkReadClearsUnread | backend/src/controllers/newsController.js:73-76 | after a user marks all read, that user's unread count is 0 for every role |
| News.MarkReadKeepsOthers | backend/src/controllers/newsController.js:92-95 | marking all read for one user leaves every other user's unread count unchanged |
| News.SelectedNews | backend/src/controllers/newsController.js:41-44 | the selection is exactly the items for the role that match the search |
| News.SortedNews | backend/src/controllers/newsController.js:46-49 | the selected items, each as often as it is stored (a permutation of the selection), newest first |
| News.NewestFirst | backend/src/controllers/newsController.js:49 | a newest-first sequence is ordered by creation time |
| News.NewsPageFacts | backend/src/controllers/newsController.js:41-52 | a window of newest-first posts that all match the role and search holds only stored matching posts, newest first |
| News.GetNews | backend/src/controllers/newsController.js:36-61 | a negative skip fails with the store's refusal (500), and only then; total counts every match; the rows are the page's window of the matches for the role, newest first, exactly as many as the window of that many matches holds |
| Lifecycle.RewriteKeepsValid | backend/src/controllers/borrowController.js:163-192 | rewriting one record in place without making it live keeps ids and the one-live-request rule |
| Lifecycle.AppendKeepsValid | backend/src/controllers/borrowController.js:244 | appending a record that is not live under the next id keeps the store valid |
| Lifecycle.RequestBookKeepsValid | backend/src/controllers/borrowController.js:74-86 | a request keeps every user at one live request at most |
| Lifecycle.ApproveRequestKeepsValid | backend/src/controllers/borrowController.js:163-192 | a decision keeps the store valid |
| Lifecycle.BorrowBookKeepsValid | backend/src/controllers/borrowController.js:232-244 | a direct borrow keeps the store valid |
| Lifecycle.ReturnBookKeepsValid | backend/src/controllers/borrowController.js:273-276 | a return keeps the store valid |
| Lifecycle.VerifyPaymentKeepsValid | backend/src/controllers/paymentController.js:92-110 | a payment callback keeps the store valid |
| Lifecycle.InitTelebirrKeepsValid | backend/src/controllers/paymentController.js:147-166 | a mobile-money payment keeps the store valid |
| Lifecycle.NewRequestIsFound | backend/src/controllers/borrowController.js:150-153 | a decision on a fresh request's id finds that request |
| Lifecycle.RequestApproveReturnLate | backend/src/controllers/borrowController.js:270-283 | request, approve, and return two days late: one copy out and back, and a fine of 20 replied and frozen on the record |
| Lifecycle.RejectedThenRetriedTooSoon | backend/src/controllers/borrowController.js:94-105 | a request re-sent within 24 h of its rejection gets the cooldown, with canRequestAfter = rejection + 24 h and 1 to 24 hours left |
| Lifecycle.NoLiveAfterAppend | backend/src/controllers/borrowController.js:75-79 | appending a record that is not live to records holding no live request of a user leaves that user without one |
| Lifecycle.RetryAfterCooldown | backend/src/controllers/borrowController.js:99 | 24 h after the rejection the same request succeeds |
| Lifecycle.RejectedRequestBlocksBorrow | backend/src/controllers/borrowController.js:224-228 | a rejected request, never returned, makes every later direct borrow by that user fail |
| Lifecycle.ReturningRejectedRequestAddsCopy | backend/src/controllers/borrowController.js:263-281 | returning a rejected request succeeds and adds a copy that never left the shelf |
| Lifecycle.DirectBorrowThenRequest | backend/src/controllers/borrowController.js:75-79 | a direct borrow leaves no live request, so the same user may then request another book while holding the copy |

## Left out

- HTTP and framework plumbing is not modelled: routing, the role middleware, and token signing and checking. A granted token is modelled as the data it would carry (`Auth.FirstChangeGrant`, `Auth.Session`).
- Request validation is reduced to its effect. A missing string is modelled as `""`, an absent optional field as `None`, and each rejection as `Err(Invalid)` (400). Joi's own messages are not modelled.
- The database driver is abstract:
  - store search (`$regex`) is the caller-supplied predicate `hit`;
  - `countDocuments` is the length of the selection;
  - ObjectIds are abstract: a borrow's id is its insertion position (`BorrowId`).
- Payments look borrows up by the stored `borrowId`. The source compares an ObjectId with a request string (paymentController.js:94, :148), so in the running system the lookup may never match. The model assumes the ids compare equal and also models the not-found branch.
- The model assumes the driver returns the updated document under `.value` (paymentController.js:90, :105, :159, and userController.js:161 in `Users.UpdateUser`).
- Some outside inputs are parameters rather than modelled behaviour:
  - the Chapa HTTP call: its checkout URL, or `None` on failure;
  - uuid and date-based identifiers: `txRef`, `newsId`;
  - password hashing: an injective tag, so a password matches only its own hash.
- `now` is a parameter in integer milliseconds. The source measures hours since a rejection as a floating-point number; the model compares whole milliseconds and rounds the remaining hours up exactly. Floating-point rounding is not modelled.
- Every timestamp a handler writes is taken from `now`. Date objects and ISO strings are not modelled.
- `getMe` (userController.js:60-74) is not modelled. It is a lookup by id, the same as `Users.FindUserById`.
- Reports, the frontend, and the server and route files are not part of this model.
- Concurrency is not modelled. Each handler is one atomic step, so interleavings between the record write and the copies update are left out.
- The server-error path (500 from a thrown exception) is modelled in two places only: where the store itself refuses a request (a negative skip gives `StoreRejected`), and where the Chapa checkout call fails (`GatewayFailed` in `Payments.InitPayment`). Other thrown errors, such as a lost connection, are not modelled.
- Borrows.ListBorrows: within rows whose sort keys are equal, the model fixes one order, that of its insertion sort. The store promises no particular order there.
- News.GetNews: the same holds for items created at the same time.
- The payment handlers read the caller's username, but the access middleware (authMiddleware.js:12) sets only the id, the role and the reset flag. The username is therefore always missing: `Payments.Caller` carries the id alone, payment records carry no username, and the gateway's e-mail and name fields are not modelled.
- The query defaults `page = 1` and `limit = 10` (borrowController.js:296, userController.js:82, newsController.js:38) and the `+page`/`+limit` number conversion are not modelled: page and limit are given as integers.
- `amount` is modelled as an integer that must be present and positive. The source accepts any truthy value that is not `<= 0`, such as 12.5 or the string "50" (paymentController.js:38, :123). It stores the checkout amount as sent (:63) and the mobile-money amount as `Number(amount)` (:138).

=== FILE: auth.dfy ===
/** Account access as a per-user state machine over `passwordChanged`,
    `status` and `role`: a new account proves itself with username and id
    and sets its password once; from then on it logs in with that password,
    unless it is a deactivated non-admin; a logged-in user may replace the
    password by giving the old one. Token issuing is outside this model: a
    granted token is the data it would carry. */
module Auth {
  import opened Common
  import opened Store
  import Users

  /** The minimum password length the forms accept. */
  const MinPasswordLength: nat := 6

  predicate IsAccount(u: User, username: string, id: string)
  {
    u.username == username && u.id == id
  }

  function FindAccount(users: seq<User>, username: string, id: string): (r: Option<nat>)
    ensures r.Some? ==> r.value < |users| && IsAccount(users[r.value], username, id)
    ensures r.Some? ==> forall j :: 0 <= j < r.value ==> !IsAccount(users[j], username, id)
    ensures r.None? <==> forall i :: 0 <= i < |users| ==> !IsAccount(users[i], username, id)
  {
    FirstIndex(users, (u: User) => IsAccount(u, username, id))
  }

  /** The short-lived grant that lets a new account set its password. */
  datatype FirstChangeGrant = FirstChangeGrant(userId: string, username: string)

  /** POST /auth/first-login: username and id identify an account that has
      not yet set its password. */
  function FirstLogin(s: Store, username: string, id: string): (r: Result<FirstChangeGrant>)
    ensures username == "" || id == "" ==> r == Err(Invalid)
    ensures username != "" && id != "" && FindAccount(s.users, username, id).None? ==> r == Err(UserNotFound)
    ensures r.Ok? <==> (username != "" && id != "" && FindAccount(s.users, username, id).Some?
                        && !s.users[FindAccount(s.users, username, id).value].passwordChanged)
    ensures r.Ok? ==> r.value == FirstChangeGrant(id, username)
    ensures username != "" && id != "" && FindAccount(s.users, username, id).Some? ==>
              s.users[FindAccount(s.users, username, id).value].passwordChanged ==> r == Err(PasswordAlreadySet)
  {
    if username == "" || id == "" then Err(Invalid)
    else
      match FindAccount(s.users, username, id)
      case None => Err(UserNotFound)
      case Some(i) =>
        if s.users[i].passwordChanged then Err(PasswordAlreadySet)
        else Ok(FirstChangeGrant(s.users[i].id, s.users[i].username))
  }

  /** A new password of at least 6 UTF-16 code units, typed the same twice. */
  predicate NewPasswordValid(newPassword: string, confirmPassword: string)
  {
    JsLength(newPassword) >= MinPasswordLength && confirmPassword == newPassword
  }

  /** POST /auth/change-password: sets the first password. The account is
      looked up by username and id; the write goes to the first user with
      that id. */
  function ChangePassword(s: Store, username: string, id: string, newPassword: string,
                          confirmPassword: string): (out: Step<()>)
    ensures out.result.Err? ==> out.next == s
    ensures username == "" || id == "" || !NewPasswordValid(newPassword, confirmPassword) ==>
              out.result == Err(Invalid)
    ensures username != "" && id != "" && NewPasswordValid(newPassword, confirmPassword) ==>
              FindAccount(s.users, username, id).None? ==> out.result == Err(UserNotFound)
    ensures username != "" && id != "" && NewPasswordValid(newPassword, confirmPassword) ==>
              FindAccount(s.users, username, id).Some? ==>
              s.users[FindAccount(s.users, username, id).value].passwordChanged ==> out.result == Err(PasswordAlreadySet)
    ensures out.result.Ok? <==> (username != "" && id != "" && NewPasswordValid(newPassword, confirmPassword)
                                && FindAccount(s.users, username, id).Some?
                                && !s.users[FindAccount(s.users, username, id).value].passwordChanged)
    ensures out.result.Ok? ==>
              var j := Users.FindUserById(s.users, id).value;
              && out.next == s.(users := s.users[j := s.users[j].(password := HashPassword(newPassword),
                                                                   passwordChanged := true)])
              && ComparePassword(newPassword, out.next.users[j].password)
  {
    if username == "" || id == "" || !NewPasswordValid(newPassword, confirmPassword) then Step(Err(Invalid), s)
    else
      match FindAccount(s.users, username, id)
      case None => Step(Err(UserNotFound), s)
      case Some(i) =>
        if s.users[i].passwordChanged then Step(Err(PasswordAlreadySet), s)
        else
          var j := Users.FindUserById(s.users, id).value;
          var u := s.users[j].(password := HashPassword(newPassword), passwordChanged := true);
          Step(Ok(()), s.(users := s.users[j := u]))
  }

  /** What a login token carries, plus the name the reply shows. */
  datatype Session = Session(userId: string, name: string, role: Role)

  function FindByUsername(users: seq<User>, username: string): (r: Option<nat>)
    ensures r.Some? ==> r.value < |users| && users[r.value].username == username
    ensures r.Some? ==> forall j :: 0 <= j < r.value ==> users[j].username != username
    ensures r.None? <==> forall i :: 0 <= i < |users| ==> users[i].username != username
  {
    FirstIndex(users, (u: User) => u.username == username)
  }

  /** Deactivation blocks every account except an admin's. */
  predicate NotBlocked(u: User)
  {
    u.status == Active || u.role == Admin
  }

  /** POST /auth/login. The checks run in this order: the username exists,
      the account is not a deactivated non-admin, the first password was
      set, the password matches. */
  function Login(s: Store, username: string, password: string): (r: Result<Session>)
    ensures username == "" || password == "" ==> r == Err(Invalid)
    ensures username != "" && password != "" ==>
              var k := FindByUsername(s.users, username);
              && (k.None? ==> r == Err(BadCredentials))
              && (k.Some? && s.users[k.value].status == Deactive && s.users[k.value].role != Admin ==>
                    r == Err(Deactivated))
              && (k.Some? && NotBlocked(s.users[k.value]) && !s.users[k.value].passwordChanged ==>
                    r == Err(PasswordNotSet))
              && (k.Some? && NotBlocked(s.users[k.value]) && s.users[k.value].passwordChanged ==>
                    !ComparePassword(password, s.users[k.value].password) ==> r == Err(BadCredentials))
    ensures r.Ok? ==>
              var u := s.users[FindByUsername(s.users, username).value];
              && NotBlocked(u) && u.passwordChanged && ComparePassword(password, u.password)
              && r.value == Session(u.id, u.name, u.role)
    ensures username != "" && password != "" ==>
              var k := FindByUsername(s.users, username);
              k.Some? && NotBlocked(s.users[k.value]) && s.users[k.value].passwordChanged
              && ComparePassword(password, s.users[k.value].password) ==>
                r == Ok(Session(s.users[k.value].id, s.users[k.value].name, s.users[k.value].role))
  {
    if username == "" || password == "" then Err(Invalid)
    else
      match FindByUsername(s.users, username)
      case None => Err(BadCredentials)
      case Some(k) =>
        var u := s.users[k];
        if u.status == Deactive && u.role != Admin then Err(Deactivated)
        else if !u.passwordChanged then Err(PasswordNotSet)
        else if !ComparePassword(password, u.password) then Err(BadCredentials)
        else Ok(Session(u.id, u.name, u.role))
  }

  /** POST /auth/change-password-after-login for the logged-in `callerId`:
      the old password must match; only the hash changes. */
  function ChangePasswordAfterLogin(s: Store, callerId: string, oldPassword: string, newPassword: string,
                                    confirmPassword: string): (out: Step<()>)
    ensures out.result.Err? ==> out.next == s
    ensures oldPassword == "" || !NewPasswordValid(newPassword, confirmPassword) ==> out.result == Err(Invalid)
    ensures oldPassword != "" && NewPasswordValid(newPassword, confirmPassword) ==>
              var j := Users.FindUserById(s.users, callerId);
              && (j.None? ==> out.result == Err(UserNotFound))
              && (j.Some? && !ComparePassword(oldPassword, s.users[j.value].password) ==>
                    out.result == Err(OldPasswordWrong))
              && (j.Some? && ComparePassword(oldPassword, s.users[j.value].password) ==> out.result.Ok?)
    ensures out.result.Ok? ==>
              var j := Users.FindUserById(s.users, callerId).value;
              && out.next == s.(users := s.users[j := s.users[j].(password := HashPassword(newPassword))])
              && out.next.users[j].passwordChanged == s.users[j].passwordChanged
  {
    if oldPassword == "" || !NewPasswordValid(newPassword, confirmPassword) then Step(Err(Invalid), s)
    else
      match Users.FindUserById(s.users, callerId)
      case None => Step(Err(UserNotFound), s)
      case Some(j) =>
        if !ComparePassword(oldPassword, s.users[j].password) then Step(Err(OldPasswordWrong), s)
        else Step(Ok(()), s.(users := s.users[j := s.users[j].(password := HashPassword(newPassword))]))
  }

  /** A new account cannot log in with the temporary password it was given:
      it has to go through first login, which accepts it. */
  lemma NewAccountMustSetPassword(s: Store, f: Users.NewUserForm, now: Millis)
    requires Users.CreateUser(s, f, now).result.Ok?
    ensures var t := Users.CreateUser(s, f, now).next;
            && FirstLogin(t, f.username, f.id) == Ok(FirstChangeGrant(f.id, f.username))
            && Login(t, f.username, Users.TempPassword).Err?
            && Login(t, f.username, Users.TempPassword).failure in {PasswordNotSet, Deactivated}
  {
    var t := Users.CreateUser(s, f, now).next;
    var u :| t.users == s.users + [u] && u.id == f.id && u.username == f.username && !u.passwordChanged;
    assert forall i :: 0 <= i < |s.users| ==> s.users[i].username != f.username;
    FirstIndexAppend(s.users, u, (v: User) => IsAccount(v, f.username, f.id));
    FirstIndexAppend(s.users, u, (v: User) => v.username == f.username);
  }

  /** The first password is set once: afterwards first login and the
      first-password form are refused, and the new password logs in unless
      the account is blocked. */
  lemma FirstPasswordIsOneShot(s: Store, username: string, id: string, pw: string, pw2: string)
    requires Users.UniqueAccounts(s.users)
    requires ChangePassword(s, username, id, pw, pw).result.Ok?
    ensures var t := ChangePassword(s, username, id, pw, pw).next;
            && FirstLogin(t, username, id) == Err(PasswordAlreadySet)
            && ChangePassword(t, username, id, pw2, pw2).result.Err?
            && (NotBlocked(s.users[FindAccount(s.users, username, id).value]) ==> Login(t, username, pw).Ok?)
  {
    var t := ChangePassword(s, username, id, pw, pw).next;
    var i := FindAccount(s.users, username, id).value;
    var j := Users.FindUserById(s.users, id).value;
    assert i == j;
    FirstIndexStable(s.users, t.users, (u: User) => IsAccount(u, username, id));
    FirstIndexStable(s.users, t.users, (u: User) => u.username == username);
    assert FindByUsername(s.users, username) == Some(i);
    assert t.users[i].passwordChanged && ComparePassword(pw, t.users[i].password);
  }

  /** A password change after login swaps the password that logs in: the
      old one is refused from then on, and the new one logs in whenever the
      account could log in before. */
  lemma ChangedPasswordReplacesOld(s: Store, callerId: string, oldPassword: string, pw: string)
    requires Users.UniqueAccounts(s.users)
    requires ChangePasswordAfterLogin(s, callerId, oldPassword, pw, pw).result.Ok?
    requires oldPassword != pw
    ensures var u := s.users[Users.FindUserById(s.users, callerId).value];
            var t := ChangePasswordAfterLogin(s, callerId, oldPassword, pw, pw).next;
            && Login(t, u.username, oldPassword).Err?
            && (u.username != "" && NotBlocked(u) && u.passwordChanged ==>
                  Login(t, u.username, pw) == Ok(Session(u.id, u.name, u.role)))
  {
    var j := Users.FindUserById(s.users, callerId).value;
    var u := s.users[j];
    var t := ChangePasswordAfterLogin(s, callerId, oldPassword, pw, pw).next;
    assert forall k :: 0 <= k < |s.users| && k != j ==> s.users[k].username != u.username;
    FirstIndexStable(s.users, t.users, (v: User) => v.username == u.username);
    assert FindByUsername(s.users, u.username) == Some(j);
    assert t.users[j].password == HashPassword(pw);
  }

  /** Three emoji are a long enough password: the length rule counts UTF-16
      code units, as the form validation does. */
  lemma EmojiPasswordAccepted()
    ensures NewPasswordValid("\U{1F600}\U{1F600}\U{1F600}", "\U{1F600}\U{1F600}\U{1F600}")
  {
    JsLengthExamples();
  }
}

=== FILE: borrows.dfy ===
/** The borrow lifecycle: a user requests a book, a librarian approves or
    rejects the request, or a user borrows directly; a return freezes the fine
    and gives the copy back; listings show the live fine of unreturned rows.
    Each handler is one atomic step over the store. */
module Borrows {
  import opened Common
  import opened Store
  import opened Fine
  import opened Ordering

  /** The body of a book request and of a direct borrow. */
  datatype BorrowForm = BorrowForm(
    userId: string,
    username: string,
    bookId: string,
    bookName: string,
    dueDate: Millis)

  /** Every field present and a due date that is not in the past. */
  predicate FormValid(f: BorrowForm, now: Millis)
  {
    f.userId != "" && f.username != "" && f.bookId != "" && f.bookName != "" && f.dueDate >= now
  }

  /** Some user carries both this id and this username. */
  predicate UserMatches(s: Store, userId: string, username: string)
  {
    exists i :: 0 <= i < |s.users| && s.users[i].id == userId && s.users[i].username == username
  }

  /** The book with this id carries this name. */
  predicate BookMatches(s: Store, bookId: string, bookName: string)
  {
    bookId in s.books && s.books[bookId].name == bookName
  }

  /** The form is valid and names a known user and a known book. */
  predicate IdentityKnown(s: Store, f: BorrowForm, now: Millis)
  {
    FormValid(f, now) && UserMatches(s, f.userId, f.username) && BookMatches(s, f.bookId, f.bookName)
  }

  /** The user has a record the request path counts as live. */
  predicate HasLiveRequest(bs: seq<Borrow>, userId: string)
  {
    exists i :: 0 <= i < |bs| && bs[i].userId == userId && LiveRequest(bs[i])
  }

  /** The user has a record nobody returned, whatever its status. */
  predicate HasUnreturned(bs: seq<Borrow>, userId: string)
  {
    exists i :: 0 <= i < |bs| && bs[i].userId == userId && Unreturned(bs[i])
  }

  function FindUser(s: Store, userId: string, username: string): Option<nat>
  {
    FirstIndex(s.users, (u: User) => u.id == userId && u.username == username)
  }

  // ---------------------------------------------------------------------
  // Request and cooldown
  // ---------------------------------------------------------------------

  /** The reply to a request: the new record and whether a copy is on the
      shelf right now (informational only; nothing is reserved). */
  datatype Requested = Requested(request: Borrow, available: bool)

  predicate IsRejectionOf(b: Borrow, userId: string, bookId: string)
  {
    b.userId == userId && b.bookId == bookId && b.status == Some(Rejected)
  }

  /** The rejected record of this user for this book that the store hands
      back. The store does not promise which one when there are several, so
      `pick` selects among them; every choice is a possible run. */
  function ChosenRejection(bs: seq<Borrow>, userId: string, bookId: string, pick: nat): (r: Option<Borrow>)
    ensures r.Some? ==> r.value in bs && IsRejectionOf(r.value, userId, bookId)
    ensures r.None? <==> forall i :: 0 <= i < |bs| ==> !IsRejectionOf(bs[i], userId, bookId)
  {
    var rs := Filter(bs, (b: Borrow) => IsRejectionOf(b, userId, bookId));
    if |rs| == 0 then
      assert forall i :: 0 <= i < |bs| ==> !IsRejectionOf(bs[i], userId, bookId) by {
        forall i | 0 <= i < |bs| ensures !IsRejectionOf(bs[i], userId, bookId) {
          assert bs[i] in bs;
        }
      }
      None
    else
      assert rs[pick % |rs|] in rs;
      Some(rs[pick % |rs|])
  }

  /** When a request was rejected; a missing time reads as the epoch, as
      `new Date(null)` does. */
  function RejectedAt(b: Borrow): Millis
  {
    if b.approvedAt.Some? then b.approvedAt.value else 0
  }

  /** The refusal a rejection at `at` still causes at `now`: blocked while
      less than 24 hours have passed, with the hours left rounded up. */
  function CooldownFailure(at: Millis, now: Millis): (r: Option<Failure>)
    ensures r.Some? <==> now - at < MsPerDay
    ensures r.Some? ==> r.value.Cooldown? && r.value.canRequestAfter == at + MsPerDay
    ensures r.Some? ==> (r.value.hoursLeft - 1) * MsPerHour < MsPerDay - (now - at) <= r.value.hoursLeft * MsPerHour
  {
    var elapsed := now - at;
    if elapsed < MsPerDay then Some(Cooldown(CeilDiv(MsPerDay - elapsed, MsPerHour), at + MsPerDay))
    else None
  }

  /** A rejection between 0 and 24 hours old asks for a wait of 1 to 24 hours. */
  lemma CooldownHoursInRange(at: Millis, now: Millis)
    requires 0 <= now - at < MsPerDay
    ensures CooldownFailure(at, now).Some?
    ensures 1 <= CooldownFailure(at, now).value.hoursLeft <= 24
  {
    var h := CooldownFailure(at, now).value.hoursLeft;
    if h < 1 {
      MulMonotone(h, 0, MsPerHour);
      assert false;
    }
    if h > 24 {
      MulMonotone(24, h - 1, MsPerHour);
      assert false;
    }
  }

  /** The cooldown does not block once 24 hours have passed. */
  predicate CoolingDown(bs: seq<Borrow>, f: BorrowForm, now: Millis, pick: nat)
  {
    var rej := ChosenRejection(bs, f.userId, f.bookId, pick);
    rej.Some? && CooldownFailure(RejectedAt(rej.value), now).Some?
  }

  /** Every guard of a request passes. */
  predicate RequestAllowed(s: Store, f: BorrowForm, now: Millis, pick: nat)
  {
    && IdentityKnown(s, f, now)
    && !HasLiveRequest(s.borrows, f.userId)
    && !CoolingDown(s.borrows, f, now, pick)
  }

  /** The pending record a request creates. */
  function NewRequest(s: Store, f: BorrowForm, now: Millis): Borrow
    requires f.bookId in s.books
  {
    Borrow(|s.borrows|, f.userId, f.username, f.bookId, f.bookName, s.books[f.bookId].title,
           Some(Pending), Some(now), None, f.dueDate, None, 0, None, None, None)
  }

  /** POST /borrows/request. */
  function RequestBook(s: Store, f: BorrowForm, now: Millis, pick: nat): (out: Step<Requested>)
    ensures out.result.Err? ==> out.next == s
    ensures out.result.Ok? <==> RequestAllowed(s, f, now, pick)
    ensures !FormValid(f, now) ==> out.result == Err(Invalid)
    ensures FormValid(f, now) && !UserMatches(s, f.userId, f.username) ==> out.result == Err(UnknownUser)
    ensures FormValid(f, now) && UserMatches(s, f.userId, f.username) ==>
              !BookMatches(s, f.bookId, f.bookName) ==> out.result == Err(UnknownBook)
    ensures IdentityKnown(s, f, now) && HasLiveRequest(s.borrows, f.userId) ==>
              out.result.Err? && out.result.failure.ActiveRequest?
    ensures out.result.Err? && out.result.failure.ActiveRequest? ==>
              exists i :: 0 <= i < |s.borrows| && s.borrows[i].userId == f.userId && LiveRequest(s.borrows[i])
                && out.result.failure.existingStatus == StatusName(s.borrows[i].status.value)
                && forall j :: 0 <= j < i ==> !(s.borrows[j].userId == f.userId && LiveRequest(s.borrows[j]))
    ensures out.result.Err? && out.result.failure.Cooldown? ==>
              var rej := ChosenRejection(s.borrows, f.userId, f.bookId, pick);
              rej.Some? && Some(out.result.failure) == CooldownFailure(RejectedAt(rej.value), now)
    ensures IdentityKnown(s, f, now) && !HasLiveRequest(s.borrows, f.userId) && CoolingDown(s.borrows, f, now, pick) ==>
              var rej := ChosenRejection(s.borrows, f.userId, f.bookId, pick);
              out.result == Err(CooldownFailure(RejectedAt(rej.value), now).value)
    ensures out.result.Ok? ==>
              var r := out.result.value.request;
              && out.next == s.(borrows := s.borrows + [r])
              && r.id == |s.borrows| && r.userId == f.userId && r.username == f.username
              && r.bookId == f.bookId && r.bookName == f.bookName && r.dueDate == f.dueDate
              && f.bookId in s.books && r.bookTitle == s.books[f.bookId].title
              && r.status == Some(Pending) && r.requestedAt == Some(now) && r.fine == 0
              && r.borrowedAt.None? && r.returnedAt.None? && r.approvedBy.None?
              && r.approvedAt.None? && r.rejectionReason.None?
              && (out.result.value.available <==> Copies(s.books, f.bookId) > 0)
  {
    if !FormValid(f, now) then Step(Err(Invalid), s)
    else if FindUser(s, f.userId, f.username).None? then Step(Err(UnknownUser), s)
    else if !BookMatches(s, f.bookId, f.bookName) then Step(Err(UnknownBook), s)
    else
      match FirstIndex(s.borrows, (b: Borrow) => b.userId == f.userId && LiveRequest(b))
      case Some(i) => Step(Err(ActiveRequest(StatusName(s.borrows[i].status.value))), s)
      case None =>
        var rej := ChosenRejection(s.borrows, f.userId, f.bookId, pick);
        if rej.Some? && CooldownFailure(RejectedAt(rej.value), now).Some? then
          Step(Err(CooldownFailure(RejectedAt(rej.value), now).value), s)
        else
          var r := NewRequest(s, f, now);
          Step(Ok(Requested(r, s.books[f.bookId].copies > 0)), s.(borrows := s.borrows + [r]))
  }

  // ---------------------------------------------------------------------
  // Approval and rejection
  // ---------------------------------------------------------------------

  predicate IsPendingWithId(b: Borrow, borrowId: BorrowId)
  {
    b.id == borrowId && b.status == Some(Pending)
  }

  /** The text stored when a rejection gives no reason. */
  const DefaultRejection: string := "Request rejected"

  /** `action` is one of the two verbs and a given reason is not empty. */
  predicate DecisionValid(action: string, reason: Option<string>)
  {
    (action == "approve" || action == "reject") && reason != Some("")
  }

  /** The first pending record with this id, which the decision acts on. */
  function FindPending(bs: seq<Borrow>, borrowId: BorrowId): (r: Option<nat>)
    ensures r.Some? ==> r.value < |bs| && IsPendingWithId(bs[r.value], borrowId)
    ensures r.Some? ==> forall j :: 0 <= j < r.value ==> !IsPendingWithId(bs[j], borrowId)
    ensures r.None? <==> forall i :: 0 <= i < |bs| ==> !IsPendingWithId(bs[i], borrowId)
  {
    FirstIndex(bs, (b: Borrow) => IsPendingWithId(b, borrowId))
  }

  /** Store `s` becomes `t` by rewriting record `i` alone; users, payments and
      news stay as they were. */
  predicate OnlyRecordChanged(s: Store, t: Store, i: nat)
  {
    && t.users == s.users && t.payments == s.payments && t.news == s.news
    && |t.borrows| == |s.borrows| && i < |s.borrows|
    && forall j :: 0 <= j < |s.borrows| && j != i ==> t.borrows[j] == s.borrows[j]
  }

  /** POST /borrows/approve: the librarian `approver` approves or rejects a
      pending request. The reply is the record's new status. */
  function ApproveRequest(s: Store, borrowId: BorrowId, action: string, reason: Option<string>,
                          approver: string, now: Millis): (out: Step<BorrowStatus>)
    ensures out.result.Err? ==> out.next == s
    ensures !DecisionValid(action, reason) ==> out.result == Err(Invalid)
    ensures DecisionValid(action, reason) && FindPending(s.borrows, borrowId).None? ==>
              out.result == Err(PendingNotFound)
    ensures out.result.Ok? ==> DecisionValid(action, reason) && FindPending(s.borrows, borrowId).Some?
    ensures out.result == Ok(Borrowed) <==>
              DecisionValid(action, reason) && action == "approve" && FindPending(s.borrows, borrowId).Some?
              && Copies(s.books, s.borrows[FindPending(s.borrows, borrowId).value].bookId) > 0
    ensures out.result == Ok(Borrowed) ==>
              var i := FindPending(s.borrows, borrowId).value;
              var b := s.borrows[i];
              && OnlyRecordChanged(s, out.next, i)
              && out.next.borrows[i] == b.(status := Some(Borrowed), approvedBy := Some(approver),
                                          approvedAt := Some(now), borrowedAt := Some(now))
              && out.next.books == AddCopies(s.books, b.bookId, -1)
              && Copies(out.next.books, b.bookId) == Copies(s.books, b.bookId) - 1
    ensures out.result == Ok(Rejected) <==>
              DecisionValid(action, reason) && action == "reject" && FindPending(s.borrows, borrowId).Some?
    ensures out.result == Ok(Rejected) ==>
              var i := FindPending(s.borrows, borrowId).value;
              var b := s.borrows[i];
              && OnlyRecordChanged(s, out.next, i)
              && out.next.borrows[i] == b.(status := Some(Rejected), approvedBy := Some(approver),
                                          approvedAt := Some(now),
                                          rejectionReason := Some(if reason.Some? then reason.value else DefaultRejection))
              && out.next.books == s.books
    ensures out.result.Ok? ==> out.result == Ok(Borrowed) || out.result == Ok(Rejected)
    ensures DecisionValid(action, reason) && action == "approve" && FindPending(s.borrows, borrowId).Some?
            && Copies(s.books, s.borrows[FindPending(s.borrows, borrowId).value].bookId) <= 0 ==>
              out.result == Err(NoCopies)
  {
    if !DecisionValid(action, reason) then Step(Err(Invalid), s)
    else
      match FindPending(s.borrows, borrowId)
      case None => Step(Err(PendingNotFound), s)
      case Some(i) =>
        var b := s.borrows[i];
        if action == "approve" then
          if b.bookId !in s.books || s.books[b.bookId].copies <= 0 then Step(Err(NoCopies), s)
          else
            var b' := b.(status := Some(Borrowed), approvedBy := Some(approver),
                         approvedAt := Some(now), borrowedAt := Some(now));
            Step(Ok(Borrowed), s.(borrows := s.borrows[i := b'], books := AddCopies(s.books, b.bookId, -1)))
        else
          var why := if reason.Some? then reason.value else DefaultRejection;
          var b' := b.(status := Some(Rejected), approvedBy := Some(approver),
                       approvedAt := Some(now), rejectionReason := Some(why));
          Step(Ok(Rejected), s.(borrows := s.borrows[i := b']))
  }

  // ---------------------------------------------------------------------
  // Direct borrow and return
  // ---------------------------------------------------------------------

  /** Every guard of a direct borrow passes. */
  predicate BorrowAllowed(s: Store, f: BorrowForm, now: Millis)
  {
    && IdentityKnown(s, f, now)
    && !HasUnreturned(s.borrows, f.userId)
    && Copies(s.books, f.bookId) > 0
  }

  /** POST /borrows/borrow: lends a copy at once, without a request. */
  function BorrowBook(s: Store, f: BorrowForm, now: Millis): (out: Step<Borrow>)
    ensures out.result.Err? ==> out.next == s
    ensures out.result.Ok? <==> BorrowAllowed(s, f, now)
    ensures !FormValid(f, now) ==> out.result == Err(Invalid)
    ensures FormValid(f, now) && !UserMatches(s, f.userId, f.username) ==> out.result == Err(UnknownUser)
    ensures FormValid(f, now) && UserMatches(s, f.userId, f.username) ==>
              !BookMatches(s, f.bookId, f.bookName) ==> out.result == Err(UnknownBook)
    ensures IdentityKnown(s, f, now) && HasUnreturned(s.borrows, f.userId) ==>
              out.result == Err(AlreadyBorrowing)
    ensures IdentityKnown(s, f, now) && !HasUnreturned(s.borrows, f.userId) ==>
              Copies(s.books, f.bookId) <= 0 ==> out.result == Err(NoCopies)
    ensures out.result.Ok? ==>
              var r := out.result.value;
              && out.next.borrows == s.borrows + [r]
              && out.next.books == AddCopies(s.books, f.bookId, -1)
              && Copies(out.next.books, f.bookId) == Copies(s.books, f.bookId) - 1
              && out.next.users == s.users && out.next.payments == s.payments && out.next.news == s.news
              && r.id == |s.borrows| && r.userId == f.userId && r.username == f.username
              && r.bookId == f.bookId && r.bookName == f.bookName
              && f.bookId in s.books && r.bookTitle == s.books[f.bookId].title
              && r.dueDate == f.dueDate && r.status.None? && r.requestedAt.None?
              && r.borrowedAt == Some(now) && r.returnedAt.None? && r.fine == 0
              && r.approvedBy.None? && r.approvedAt.None? && r.rejectionReason.None?
  {
    if !FormValid(f, now) then Step(Err(Invalid), s)
    else if FindUser(s, f.userId, f.username).None? then Step(Err(UnknownUser), s)
    else if !BookMatches(s, f.bookId, f.bookName) then Step(Err(UnknownBook), s)
    else if FirstIndex(s.borrows, (b: Borrow) => b.userId == f.userId && Unreturned(b)).Some? then
      Step(Err(AlreadyBorrowing), s)
    else if s.books[f.bookId].copies <= 0 then Step(Err(NoCopies), s)
    else
      var r := Borrow(|s.borrows|, f.userId, f.username, f.bookId, f.bookName, s.books[f.bookId].title,
                      None, None, Some(now), f.dueDate, None, 0, None, None, None);
      Step(Ok(r), s.(borrows := s.borrows + [r], books := AddCopies(s.books, f.bookId, -1)))
  }

  predicate IsUnreturnedLoan(b: Borrow, userId: string, bookId: string)
  {
    b.userId == userId && b.bookId == bookId && Unreturned(b)
  }

  /** The first unreturned record of this user for this book. */
  function FindLoan(bs: seq<Borrow>, userId: string, bookId: string): (r: Option<nat>)
    ensures r.Some? ==> r.value < |bs| && IsUnreturnedLoan(bs[r.value], userId, bookId)
    ensures r.Some? ==> forall j :: 0 <= j < r.value ==> !IsUnreturnedLoan(bs[j], userId, bookId)
    ensures r.None? <==> forall i :: 0 <= i < |bs| ==> !IsUnreturnedLoan(bs[i], userId, bookId)
  {
    FirstIndex(bs, (b: Borrow) => IsUnreturnedLoan(b, userId, bookId))
  }

  /** POST /borrows/return: closes the loan, freezes the fine owed at `now`
      on the record and answers with it. */
  function ReturnBook(s: Store, userId: string, bookId: string, now: Millis): (out: Step<int>)
    ensures out.result.Err? ==> out.next == s
    ensures userId == "" || bookId == "" ==> out.result == Err(Invalid)
    ensures out.result.Ok? <==> userId != "" && bookId != "" && FindLoan(s.borrows, userId, bookId).Some?
    ensures out.result.Err? && userId != "" && bookId != "" ==> out.result == Err(NoActiveBorrow)
    ensures out.result.Ok? ==>
              var i := FindLoan(s.borrows, userId, bookId).value;
              var b := s.borrows[i];
              && out.result.value == CalculateFine(b.dueDate, now)
              && OnlyRecordChanged(s, out.next, i)
              && out.next.borrows[i] == b.(returnedAt := Some(now), fine := out.result.value)
              && out.next.books == AddCopies(s.books, bookId, 1)
  {
    if userId == "" || bookId == "" then Step(Err(Invalid), s)
    else
      match FindLoan(s.borrows, userId, bookId)
      case None => Step(Err(NoActiveBorrow), s)
      case Some(i) =>
        var b := s.borrows[i];
        var fine := CalculateFine(b.dueDate, now);
        Step(Ok(fine), s.(borrows := s.borrows[i := b.(returnedAt := Some(now), fine := fine)],
                          books := AddCopies(s.books, bookId, 1)))
  }

  /** The fine a return freezes is the one every later listing shows for
      that record, however much time passes. */
  lemma ReturnedFineIsFrozen(s: Store, userId: string, bookId: string, now: Millis, later: Millis)
    requires ReturnBook(s, userId, bookId, now).result.Ok?
    ensures var out := ReturnBook(s, userId, bookId, now);
            var i := FindLoan(s.borrows, userId, bookId).value;
            DisplayFine(out.next.borrows[i], later) == out.result.value
  {
  }

  // ---------------------------------------------------------------------
  // Listing and viewing
  // ---------------------------------------------------------------------

  /** The fine a listing shows: the frozen one once returned, else the fine
      owed at `now`. */
  function DisplayFine(b: Borrow, now: Millis): (fine: int)
    ensures b.returnedAt.Some? ==> fine == b.fine
    ensures b.returnedAt.None? ==> fine == CalculateFine(b.dueDate, now)
  {
    if b.returnedAt.Some? then b.fine else CalculateFine(b.dueDate, now)
  }

  /** Newest first by the time the book left the shelf, then by request time. */
  function BorrowKey(b: Borrow): SortKey
  {
    SortKey(b.borrowedAt, b.requestedAt)
  }

  /** GET /borrows query: `search` is a free-text pattern whose matching the
      store performs (given here as `hit`); `status` is an exact status name;
      an empty string means no filter. */
  datatype BorrowQuery = BorrowQuery(page: int, limit: int, search: string, status: string)

  predicate QueryMatches(q: BorrowQuery, hit: Borrow -> bool, b: Borrow)
  {
    && (q.search == "" || hit(b))
    && (q.status == "" || (b.status.Some? && StatusName(b.status.value) == q.status))
  }

  function Enrich(rows: seq<Borrow>, now: Millis): (r: seq<Borrow>)
    ensures |r| == |rows|
    ensures forall i :: 0 <= i < |r| ==> r[i] == rows[i].(fine := DisplayFine(rows[i], now))
  {
    seq(|rows|, i requires 0 <= i < |rows| => rows[i].(fine := DisplayFine(rows[i], now)))
  }

  /** The records a query selects, in store order. */
  function Selected(s: Store, q: BorrowQuery, hit: Borrow -> bool): (r: seq<Borrow>)
    ensures forall b :: b in r <==> b in s.borrows && QueryMatches(q, hit, b)
  {
    Filter(s.borrows, (b: Borrow) => QueryMatches(q, hit, b))
  }

  /** The matching records in newest-first order. */
  function Matching(s: Store, q: BorrowQuery, hit: Borrow -> bool): (r: seq<Borrow>)
    ensures SortedDesc(r, BorrowKey)
    ensures multiset(r) == multiset(Selected(s, q, hit))
    ensures |r| == |Selected(s, q, hit)|
    ensures forall i :: 0 <= i < |r| ==> r[i] in s.borrows && QueryMatches(q, hit, r[i])
  {
    var m := Selected(s, q, hit);
    var sorted := SortDesc(m, BorrowKey);
    forall i | 0 <= i < |sorted|
      ensures sorted[i] in s.borrows && QueryMatches(q, hit, sorted[i])
    {
      assert sorted[i] in multiset(sorted);
      assert sorted[i] in m;
    }
    sorted
  }

  /** A window of a newest-first sequence is newest-first, and enriching the
      fine does not move a row. */
  lemma PageOfSortedIsSorted(sorted: seq<Borrow>, rows: seq<Borrow>, skip: int, now: Millis)
    requires SortedDesc(sorted, BorrowKey)
    requires (0 <= skip && skip + |rows| <= |sorted|) || |rows| == 0
    requires forall i :: 0 <= i < |rows| ==> rows[i] == sorted[skip + i]
    ensures SortedDesc(Enrich(rows, now), BorrowKey)
  {
    var shown := Enrich(rows, now);
    forall i, j | 0 <= i < j < |shown|
      ensures NotBelow(BorrowKey(shown[i]), BorrowKey(shown[j]))
    {
      assert BorrowKey(shown[i]) == BorrowKey(sorted[skip + i]);
      assert BorrowKey(shown[j]) == BorrowKey(sorted[skip + j]);
    }
  }

  /** `row` is a matching store record shown with its display fine. */
  predicate ShownFrom(s: Store, q: BorrowQuery, hit: Borrow -> bool, now: Millis, row: Borrow)
  {
    exists b :: b in s.borrows && QueryMatches(q, hit, b) && row == b.(fine := DisplayFine(b, now))
  }

  /** Every row of a window of matching records, once enriched, is a
      matching store record shown with its display fine. */
  lemma PageRowsAreShown(s: Store, q: BorrowQuery, hit: Borrow -> bool, now: Millis,
                         sorted: seq<Borrow>, rows: seq<Borrow>, skip: int)
    requires forall i :: 0 <= i < |sorted| ==> sorted[i] in s.borrows && QueryMatches(q, hit, sorted[i])
    requires (0 <= skip && skip + |rows| <= |sorted|) || |rows| == 0
    requires forall i :: 0 <= i < |rows| ==> rows[i] == sorted[skip + i]
    ensures forall i :: 0 <= i < |rows| ==> ShownFrom(s, q, hit, now, Enrich(rows, now)[i])
  {
    var shown := Enrich(rows, now);
    forall i | 0 <= i < |shown|
      ensures ShownFrom(s, q, hit, now, shown[i])
    {
      var b := sorted[skip + i];
      assert rows[i] == b;
      assert b in s.borrows && QueryMatches(q, hit, b);
    }
  }

  /** GET /borrows. */
  function ListBorrows(s: Store, q: BorrowQuery, hit: Borrow -> bool, now: Millis): (r: Result<Listing<Borrow>>)
    ensures r.Err? <==> (q.page - 1) * q.limit < 0
    ensures r.Err? ==> r.failure == StoreRejected
    ensures r.Ok? ==> r.value.page == q.page && r.value.limit == q.limit
    ensures r.Ok? ==> r.value.total == |Selected(s, q, hit)|
    ensures r.Ok? ==> q.limit != 0 ==> |r.value.rows| <= Abs(q.limit)
    ensures r.Ok? ==> q.page == 1 && q.limit == 0 ==> |r.value.rows| == r.value.total
    ensures r.Ok? ==> SortedDesc(r.value.rows, BorrowKey)
    ensures r.Ok? ==> forall i :: 0 <= i < |r.value.rows| ==> ShownFrom(s, q, hit, now, r.value.rows[i])
    ensures r.Ok? ==> (q.page - 1) * q.limit + |r.value.rows| <= |Matching(s, q, hit)| || |r.value.rows| == 0
    ensures r.Ok? ==> |r.value.rows| == WindowSize(|Selected(s, q, hit)|, q.page, q.limit)
    ensures r.Ok? ==> forall i :: 0 <= i < |r.value.rows| ==>
              var b := Matching(s, q, hit)[(q.page - 1) * q.limit + i];
              r.value.rows[i] == b.(fine := DisplayFine(b, now))
  {
    var sorted := Matching(s, q, hit);
    match Page(sorted, q.page, q.limit)
    case Err(e) => Err(e)
    case Ok(rows) =>
      var skip := (q.page - 1) * q.limit;
      assert |rows| == WindowSize(|Selected(s, q, hit)|, q.page, q.limit);
      PageOfSortedIsSorted(sorted, rows, skip, now);
      PageRowsAreShown(s, q, hit, now, sorted, rows, skip);
      Ok(Listing(Enrich(rows, now), |sorted|, q.page, q.limit))
  }

  predicate IsOwnLoan(b: Borrow, userId: string, username: string)
  {
    b.userId == userId && b.username == username && Unreturned(b)
  }

  /** POST /borrows/my: the caller's unreturned record with the fine owed at
      `now`, whatever fine is stored on it. */
  function GetBorrowByUser(s: Store, userId: string, username: string, now: Millis): (r: Result<Borrow>)
    ensures r.Ok? <==> (userId != "" && username != "" &&
                        exists i :: 0 <= i < |s.borrows| && IsOwnLoan(s.borrows[i], userId, username))
    ensures userId == "" || username == "" ==> r == Err(Invalid)
    ensures r.Err? && userId != "" && username != "" ==> r == Err(NoActiveBorrow)
    ensures r.Ok? ==> exists i :: 0 <= i < |s.borrows| && IsOwnLoan(s.borrows[i], userId, username)
                        && (forall j :: 0 <= j < i ==> !IsOwnLoan(s.borrows[j], userId, username))
                        && r.value == s.borrows[i].(fine := CalculateFine(s.borrows[i].dueDate, now))
  {
    if userId == "" || username == "" then Err(Invalid)
    else
      match FirstIndex(s.borrows, (b: Borrow) => IsOwnLoan(b, userId, username))
      case None => Err(NoActiveBorrow)
      case Some(i) => Ok(s.borrows[i].(fine := CalculateFine(s.borrows[i].dueDate, now)))
  }
}

=== FILE: common.dfy ===
/** Shared vocabulary of the library backend model: optional values, handler
    results with their HTTP error classes, and the sequence lookups the
    document store offers (first match, filter, skip/limit paging). */
module Common {

  datatype Option<+T> = None | Some(value: T)

  /** Every way a handler refuses a request. The HTTP status code each one is
      answered with is given by `Code`. */
  datatype Failure =
    | Invalid                                        // request body fails validation
    | UnknownUser                                    // no user with that id and username
    | UnknownBook                                    // no book with that id and name
    | ActiveRequest(existingStatus: string)          // user already has a live request or borrow
    | Cooldown(hoursLeft: int, canRequestAfter: int) // a recent rejection blocks a re-request
    | PendingNotFound                                // no pending request with that id
    | NoCopies                                       // book has no copy left to lend
    | AlreadyBorrowing                               // user holds an unreturned record
    | NoActiveBorrow                                 // nothing unreturned to return or show
    | GatewayFailed                                  // the payment gateway call failed
    | PaymentNotFound                                // unknown transaction reference
    | InvalidMobile                                  // mobile number fails the local pattern
    | BorrowNotFound                                 // payment names no borrow of the caller
    | IdInUse
    | UsernameTaken
    | UserNotFound
    | AdminRoleLocked                                // an admin's role cannot be lowered
    | AdminCannotDeactivate
    | AdminCannotDelete
    | PasswordAlreadySet                             // first-login path used after the password was set
    | BadCredentials                                 // unknown username or wrong password
    | Deactivated
    | PasswordNotSet                                 // login before the first password change
    | OldPasswordWrong
    | StoreRejected                                  // the store refuses the query (negative skip)

  /** The HTTP status a failure is reported with: 400 for a malformed or
      refused request, 401 for wrong credentials, 403 for a forbidden account
      change or a blocked account, 404 for a missing record, and 500 only for
      the gateway and the store failing. */
  function Code(f: Failure): (r: int)
    ensures r in {400, 401, 403, 404, 500}
    ensures r == 500 <==> f == GatewayFailed || f == StoreRejected
    ensures r == 401 <==> f == BadCredentials || f == OldPasswordWrong
    ensures f.Cooldown? || f.ActiveRequest? ==> r == 400
  {
    match f
    case Invalid | ActiveRequest(_) | Cooldown(_, _) | NoCopies | AlreadyBorrowing
      | InvalidMobile | IdInUse | UsernameTaken | PasswordAlreadySet => 400
    case BadCredentials | OldPasswordWrong => 401
    case AdminRoleLocked | AdminCannotDeactivate | AdminCannotDelete
      | Deactivated | PasswordNotSet => 403
    case UnknownUser | UnknownBook | PendingNotFound | NoActiveBorrow
      | PaymentNotFound | BorrowNotFound | UserNotFound => 404
    case GatewayFailed | StoreRejected => 500
  }

  datatype Result<+T> = Ok(value: T) | Err(failure: Failure)

  /** Position of the first element satisfying `p`: what a store `findOne`
      returns when documents are visited in insertion order. */
  function FirstIndex<T>(xs: seq<T>, p: T -> bool): (r: Option<nat>)
    ensures r.Some? ==> r.value < |xs| && p(xs[r.value])
    ensures r.Some? ==> forall j :: 0 <= j < r.value ==> !p(xs[j])
    ensures r.None? <==> forall j :: 0 <= j < |xs| ==> !p(xs[j])
    decreases |xs|
  {
    if |xs| == 0 then None
    else if p(xs[0]) then Some(0)
    else
      match FirstIndex(xs[1..], p)
      case None => None
      case Some(i) => Some(i + 1)
  }

  /** Rewriting elements without changing which of them satisfy `p` leaves
      the first match where it was. */
  lemma {:induction false} FirstIndexStable<T>(xs: seq<T>, ys: seq<T>, p: T -> bool)
    requires |xs| == |ys|
    requires forall k :: 0 <= k < |xs| ==> p(xs[k]) == p(ys[k])
    ensures FirstIndex(xs, p) == FirstIndex(ys, p)
    decreases |xs|
  {
    if |xs| > 0 && !p(xs[0]) {
      FirstIndexStable(xs[1..], ys[1..], p);
    }
  }

  /** An element appended after elements that all fail `p` is the first
      match when it satisfies `p`. */
  lemma {:induction false} FirstIndexAppend<T>(xs: seq<T>, x: T, p: T -> bool)
    requires forall j :: 0 <= j < |xs| ==> !p(xs[j])
    requires p(x)
    ensures FirstIndex(xs + [x], p) == Some(|xs|)
    decreases |xs|
  {
    if |xs| > 0 {
      assert (xs + [x])[1..] == xs[1..] + [x];
      FirstIndexAppend(xs[1..], x, p);
    }
  }

  /** The elements satisfying `p`, in their original order. */
  function Filter<T(==,!new)>(xs: seq<T>, p: T -> bool): (r: seq<T>)
    ensures |r| <= |xs|
    ensures forall x :: x in r <==> x in xs && p(x)
    decreases |xs|
  {
    if |xs| == 0 then []
    else if p(xs[0]) then [xs[0]] + Filter(xs[1..], p)
    else Filter(xs[1..], p)
  }

  /** Filtering keeps each element satisfying `p` as often as it occurs and
      drops every other one. */
  lemma {:induction false} FilterCount<T(!new)>(xs: seq<T>, p: T -> bool)
    ensures forall x :: multiset(Filter(xs, p))[x] == if p(x) then multiset(xs)[x] else 0
    decreases |xs|
  {
    if |xs| > 0 {
      FilterCount(xs[1..], p);
      assert xs == [xs[0]] + xs[1..];
    }
  }

  /** Filtering keeps the order: filtering a concatenation concatenates the
      filtered halves. */
  lemma {:induction false} FilterAppend<T(!new)>(xs: seq<T>, ys: seq<T>, p: T -> bool)
    ensures Filter(xs + ys, p) == Filter(xs, p) + Filter(ys, p)
    decreases |xs|
  {
    if |xs| > 0 {
      assert (xs + ys)[1..] == xs[1..] + ys;
      FilterAppend(xs[1..], ys, p);
    } else {
      assert xs + ys == ys;
    }
  }

  /** A character outside the Basic Multilingual Plane: UTF-16 spends a
      surrogate pair, two code units, on it. */
  predicate Astral(c: char)
  {
    c as int > 0xFFFF
  }

  /** The length of a string as JavaScript's `.length` counts it: in UTF-16
      code units, so a character outside the Basic Multilingual Plane counts
      twice. */
  function JsLength(s: string): (n: nat)
    ensures n == |s| + |Filter(s, Astral)|
    ensures |s| <= n <= 2 * |s|
    ensures (forall i :: 0 <= i < |s| ==> s[i] as int <= 0xFFFF) ==> n == |s|
    decreases |s|
  {
    if |s| == 0 then 0
    else (if Astral(s[0]) then 2 else 1) + JsLength(s[1..])
  }

  /** Lengths of joined strings add up. */
  lemma {:induction false} JsLengthAppend(a: string, b: string)
    ensures JsLength(a + b) == JsLength(a) + JsLength(b)
    decreases |a|
  {
    if |a| > 0 {
      assert (a + b)[1..] == a[1..] + b;
      JsLengthAppend(a[1..], b);
    } else {
      assert a + b == b;
    }
  }

  /** Three emoji are six code units long: long enough for a six-character
      minimum, though they are only three characters. */
  lemma JsLengthExamples()
    ensures JsLength("abc") == 3
    ensures JsLength("\U{1F600}\U{1F600}\U{1F600}") == 6
  {
    assert "\U{1F600}\U{1F600}\U{1F600}"[1..] == "\U{1F600}\U{1F600}";
    assert "\U{1F600}\U{1F600}"[1..] == "\U{1F600}";
  }

  function Min(a: int, b: int): int { if a <= b then a else b }
  function Max(a: int, b: int): int { if a <= b then b else a }
  function Abs(a: int): nat { if a < 0 then -a else a }

  /** One page of a listing together with the size of the whole match set. */
  datatype Listing<T> = Listing(rows: seq<T>, total: nat, page: int, limit: int)

  /** How many rows a page of `n` matches holds: none once the skip passes
      the end, otherwise what is left after the skip, capped at |limit|
      unless the limit is 0. */
  function WindowSize(n: nat, page: int, limit: int): nat
  {
    var skip := (page - 1) * limit;
    if skip >= n || skip < 0 then 0
    else if limit == 0 then n - skip
    else Min(Abs(limit), n - skip)
  }

  /** The store's `skip((page - 1) * limit).limit(limit)`: a negative skip is
      refused, a limit of 0 means no limit, and a negative limit acts as its
      absolute value. */
  function Page<T>(xs: seq<T>, page: int, limit: int): (r: Result<seq<T>>)
    ensures r.Err? <==> (page - 1) * limit < 0
    ensures r.Err? ==> r.failure == StoreRejected
    ensures r.Ok? ==> (page - 1) * limit + |r.value| <= |xs| || |r.value| == 0
    ensures r.Ok? ==> limit != 0 ==> |r.value| <= Abs(limit)
    ensures r.Ok? ==> forall i :: 0 <= i < |r.value| ==> r.value[i] == xs[(page - 1) * limit + i]
    ensures r.Ok? && (page - 1) * limit <= |xs| ==>
              |r.value| == (if limit == 0 then |xs| - (page - 1) * limit
                            else Min(Abs(limit), |xs| - (page - 1) * limit))
    ensures r.Ok? && (page - 1) * limit >= |xs| ==> r.value == []
    ensures r.Ok? ==> |r.value| == WindowSize(|xs|, page, limit)
  {
    var skip := (page - 1) * limit;
    if skip < 0 then Err(StoreRejected)
    else if skip >= |xs| then Ok([])
    else
      var rest := xs[skip..];
      Ok(if limit == 0 || Abs(limit) >= |rest| then rest else rest[..Abs(limit)])
  }
}

=== FILE: fine.dfy ===
/** The overdue fine: 10 ETB for every started day past the due date. Time is
    an integer number of milliseconds, so the day count is an exact ceiling. */
module Fine {

  const MsPerHour: int := 3_600_000
  const MsPerDay: int := 86_400_000
  /** ETB charged per started day late. */
  const DailyRate: int := 10

  /** The ceiling of a / b for a positive divisor, as `Math.ceil` gives it on
      the exact quotient. */
  function CeilDiv(a: int, b: int): (q: int)
    requires b > 0
    ensures (q - 1) * b < a <= q * b
  {
    var f := (-a) / b;
    assert -a == b * f + (-a) % b;
    assert (-f - 1) * b == -(b * f) - b;
    -f
  }

  /** The one integer q with (q - 1) * b < a <= q * b. */
  lemma CeilDivUnique(a: int, b: int, q: int)
    requires b > 0
    requires (q - 1) * b < a <= q * b
    ensures q == CeilDiv(a, b)
  {
    var c := CeilDiv(a, b);
    if q < c {
      assert q * b <= (c - 1) * b by { MulMonotone(q, c - 1, b); }
      assert false;
    } else if q > c {
      assert c * b <= (q - 1) * b by { MulMonotone(c, q - 1, b); }
      assert false;
    }
  }

  lemma MulMonotone(x: int, y: int, b: int)
    requires x <= y && b > 0
    ensures x * b <= y * b
  {
    assert y * b - x * b == (y - x) * b;
  }

  /** Whole days late, counting a started day as a full one; never negative. */
  function DaysLate(due: int, now: int): (d: nat)
    ensures now <= due ==> d == 0
    ensures now > due ==> d >= 1 && (d - 1) * MsPerDay < now - due <= d * MsPerDay
  {
    var q := CeilDiv(now - due, MsPerDay);
    if q <= 0 then 0 else q
  }

  /** The fine owed at `now` on a borrow due at `due`. */
  function CalculateFine(due: int, now: int): (fine: int)
    ensures fine >= 0 && fine % DailyRate == 0
    ensures now <= due ==> fine == 0
    ensures now > due ==> fine >= DailyRate
    ensures now > due ==> (fine / DailyRate - 1) * MsPerDay < now - due <= fine / DailyRate * MsPerDay
  {
    DaysLate(due, now) * DailyRate
  }

  /** The fine is exactly the rate times the number of started days late:
      a delay in (k days, k + 1 days] costs 10 * (k + 1). */
  lemma FinePerStartedDay(due: int, now: int, k: nat)
    requires k * MsPerDay < now - due <= (k + 1) * MsPerDay
    ensures CalculateFine(due, now) == DailyRate * (k + 1)
  {
    CeilDivUnique(now - due, MsPerDay, k + 1);
  }

  /** A later `now` never owes less. */
  lemma FineMonotone(due: int, now1: int, now2: int)
    requires now1 <= now2
    ensures CalculateFine(due, now1) <= CalculateFine(due, now2)
  {
  }

  /** The worked values: nothing before or at the due date, a full day for one
      millisecond late, two days at 25 hours, three days at 3 days. */
  lemma FineExamples(due: int)
    ensures CalculateFine(due, due - 1) == 0
    ensures CalculateFine(due, due) == 0
    ensures CalculateFine(due, due + 1) == 10
    ensures CalculateFine(due, due + 25 * MsPerHour) == 20
    ensures CalculateFine(due, due + 3 * MsPerDay) == 30
  {
    FinePerStartedDay(due, due + 1, 0);
    FinePerStartedDay(due, due + 25 * MsPerHour, 1);
    FinePerStartedDay(due, due + 3 * MsPerDay, 2);
  }
}

=== FILE: lifecycle.dfy ===
/** What the borrow and payment handlers keep true together, and runs of
    several handlers that show the lifecycle end to end: a request approved
    and returned late, the cooldown after a rejection, and the ways the
    request path and the direct-borrow path see each other's records. */
module Lifecycle {
  import opened Common
  import opened Store
  import opened Fine
  import opened Borrows
  import Payments

  /** Every record's id is its position: ids are handed out in insertion
      order and no handler removes a record. */
  predicate IdsArePositions(bs: seq<Borrow>)
  {
    forall i :: 0 <= i < |bs| ==> bs[i].id == i
  }

  /** No user holds two records that the request path counts as live. */
  predicate OneLiveRequest(bs: seq<Borrow>)
  {
    forall i, j :: 0 <= i < j < |bs| && bs[i].userId == bs[j].userId && LiveRequest(bs[i]) ==> !LiveRequest(bs[j])
  }

  predicate Valid(s: Store)
  {
    IdsArePositions(s.borrows) && OneLiveRequest(s.borrows)
  }

  /** Rewriting one record in place, keeping its id and owner and not making
      it live when it was not, keeps the store valid. */
  lemma RewriteKeepsValid(s: Store, t: Store, i: nat)
    requires Valid(s) && i < |s.borrows| && |t.borrows| == |s.borrows|
    requires forall j :: 0 <= j < |s.borrows| && j != i ==> t.borrows[j] == s.borrows[j]
    requires t.borrows[i].id == s.borrows[i].id && t.borrows[i].userId == s.borrows[i].userId
    requires LiveRequest(t.borrows[i]) ==> LiveRequest(s.borrows[i])
    ensures Valid(t)
  {
  }

  /** Appending a record that is not live, with the next id, keeps the store
      valid. */
  lemma AppendKeepsValid(s: Store, t: Store, r: Borrow)
    requires Valid(s) && t.borrows == s.borrows + [r]
    requires r.id == |s.borrows| && !LiveRequest(r)
    ensures Valid(t)
  {
    assert forall j :: 0 <= j < |s.borrows| ==> t.borrows[j] == s.borrows[j];
  }

  lemma RequestBookKeepsValid(s: Store, f: BorrowForm, now: Millis, pick: nat)
    requires Valid(s)
    ensures Valid(RequestBook(s, f, now, pick).next)
  {
    var out := RequestBook(s, f, now, pick);
    if out.result.Ok? {
      var bs := out.next.borrows;
      var n := |s.borrows|;
      assert !HasLiveRequest(s.borrows, f.userId);
      assert forall j :: 0 <= j < n ==> bs[j] == s.borrows[j];
    }
  }

  lemma ApproveRequestKeepsValid(s: Store, borrowId: BorrowId, action: string, reason: Option<string>,
                                 approver: string, now: Millis)
    requires Valid(s)
    ensures Valid(ApproveRequest(s, borrowId, action, reason, approver, now).next)
  {
    var out := ApproveRequest(s, borrowId, action, reason, approver, now);
    if out.result.Ok? {
      RewriteKeepsValid(s, out.next, FindPending(s.borrows, borrowId).value);
    }
  }

  lemma BorrowBookKeepsValid(s: Store, f: BorrowForm, now: Millis)
    requires Valid(s)
    ensures Valid(BorrowBook(s, f, now).next)
  {
    var out := BorrowBook(s, f, now);
    if out.result.Ok? {
      AppendKeepsValid(s, out.next, out.result.value);
    }
  }

  lemma ReturnBookKeepsValid(s: Store, userId: string, bookId: string, now: Millis)
    requires Valid(s)
    ensures Valid(ReturnBook(s, userId, bookId, now).next)
  {
    var out := ReturnBook(s, userId, bookId, now);
    if out.result.Ok? {
      RewriteKeepsValid(s, out.next, FindLoan(s.borrows, userId, bookId).value);
    }
  }

  lemma VerifyPaymentKeepsValid(s: Store, txRef: string, status: string, now: Millis)
    requires Valid(s)
    ensures Valid(Payments.VerifyPayment(s, txRef, status, now).next)
  {
    var out := Payments.VerifyPayment(s, txRef, status, now);
    if out.result.Ok? && status == "success" {
      var p := s.payments[Payments.FindPayment(s.payments, txRef).value];
      var j := FirstIndex(s.borrows, (b: Borrow) => b.id == p.borrowId);
      if j.Some? {
        RewriteKeepsValid(s, out.next, j.value);
      }
    }
  }

  lemma InitTelebirrKeepsValid(s: Store, caller: Payments.Caller, amount: Option<int>, borrowId: Option<BorrowId>,
                               mobile: Option<string>, txRef: string, now: Millis)
    requires Valid(s)
    ensures Valid(Payments.InitTelebirrPayment(s, caller, amount, borrowId, mobile, txRef, now).next)
  {
    var out := Payments.InitTelebirrPayment(s, caller, amount, borrowId, mobile, txRef, now);
    if Payments.AmountValid(amount, borrowId) && mobile.Some? && Payments.MobileValid(mobile.value) {
      var j := FirstIndex(s.borrows, (b: Borrow) => Payments.IsCallersBorrow(b, borrowId.value, caller.id));
      if j.Some? {
        RewriteKeepsValid(s, out.next, j.value);
      }
    }
  }

  // ---------------------------------------------------------------------
  // Runs of several handlers
  // ---------------------------------------------------------------------

  /** In a valid store, the pending record a request just made is the one a
      decision on its id finds. */
  lemma NewRequestIsFound(s: Store, f: BorrowForm, now: Millis, pick: nat)
    requires Valid(s) && RequestAllowed(s, f, now, pick)
    ensures FindPending(RequestBook(s, f, now, pick).next.borrows, |s.borrows|) == Some(|s.borrows|)
  {
    var bs := RequestBook(s, f, now, pick).next.borrows;
    var r := FindPending(bs, |s.borrows|);
    assert IsPendingWithId(bs[|s.borrows|], |s.borrows|);
    assert forall i :: 0 <= i < |s.borrows| ==> bs[i] == s.borrows[i] && !IsPendingWithId(bs[i], |s.borrows|);
  }

  /** A request approved and returned two days after its due date: the copy
      leaves the shelf on approval and comes back on return, and the fine
      charged and frozen on the record is two days' worth. */
  lemma RequestApproveReturnLate(s: Store, f: BorrowForm, t0: Millis, t1: Millis, pick: nat, approver: string)
    requires Valid(s) && RequestAllowed(s, f, t0, pick) && Copies(s.books, f.bookId) > 0
    requires !HasUnreturned(s.borrows, f.userId)
    ensures var n := |s.borrows|;
            var back := f.dueDate + 2 * MsPerDay;
            var s1 := RequestBook(s, f, t0, pick);
            var s2 := ApproveRequest(s1.next, n, "approve", None, approver, t1);
            var s3 := ReturnBook(s2.next, f.userId, f.bookId, back);
            && s1.result.Ok? && s2.result == Ok(Borrowed) && s3.result == Ok(2 * DailyRate)
            && Copies(s2.next.books, f.bookId) == Copies(s.books, f.bookId) - 1
            && Copies(s3.next.books, f.bookId) == Copies(s.books, f.bookId)
            && s3.next.borrows[n].fine == 2 * DailyRate && s3.next.borrows[n].returnedAt == Some(back)
  {
    var n := |s.borrows|;
    var back := f.dueDate + 2 * MsPerDay;
    var s1 := RequestBook(s, f, t0, pick);
    NewRequestIsFound(s, f, t0, pick);
    var s2 := ApproveRequest(s1.next, n, "approve", None, approver, t1);
    assert s2.next.borrows[n].bookId == f.bookId && s2.next.borrows[n].userId == f.userId;
    var k := FindLoan(s2.next.borrows, f.userId, f.bookId);
    assert IsUnreturnedLoan(s2.next.borrows[n], f.userId, f.bookId);
    assert forall i :: 0 <= i < n ==>
      s2.next.borrows[i] == s.borrows[i] && !IsUnreturnedLoan(s2.next.borrows[i], f.userId, f.bookId);
    assert k == Some(n);
    FinePerStartedDay(f.dueDate, back, 1);
  }

  /** A request rejected at `t1` and tried again within 24 hours is refused
      with the cooldown, asking for a wait of 1 to 24 whole hours, whichever
      rejection the store hands back, as long as this is the user's only
      rejection for the book. */
  lemma RejectedThenRetriedTooSoon(s: Store, f: BorrowForm, t0: Millis, t1: Millis, t2: Millis,
                                   pick: nat, pick2: nat, approver: string)
    requires Valid(s) && RequestAllowed(s, f, t0, pick)
    requires forall i :: 0 <= i < |s.borrows| ==> !IsRejectionOf(s.borrows[i], f.userId, f.bookId)
    requires t1 <= t2 < t1 + MsPerDay && f.dueDate >= t2
    ensures var s1 := RequestBook(s, f, t0, pick);
            var s2 := ApproveRequest(s1.next, |s.borrows|, "reject", None, approver, t1);
            var s3 := RequestBook(s2.next, f, t2, pick2);
            && s2.result == Ok(Rejected)
            && s3.result.Err? && s3.result.failure.Cooldown?
            && s3.result.failure.canRequestAfter == t1 + MsPerDay
            && 1 <= s3.result.failure.hoursLeft <= 24
  {
    var n := |s.borrows|;
    var s1 := RequestBook(s, f, t0, pick);
    NewRequestIsFound(s, f, t0, pick);
    var s2 := ApproveRequest(s1.next, n, "reject", None, approver, t1);
    var bs := s2.next.borrows;
    assert bs[n].status == Some(Rejected) && bs[n].approvedAt == Some(t1);
    assert forall i :: 0 <= i < n ==> bs[i] == s.borrows[i];
    NoLiveAfterAppend(s.borrows, bs, f.userId);
    var rej := ChosenRejection(bs, f.userId, f.bookId, pick2);
    assert IsRejectionOf(bs[n], f.userId, f.bookId);
    assert rej.Some?;
    assert forall i :: 0 <= i < n ==> !IsRejectionOf(bs[i], f.userId, f.bookId);
    var k :| 0 <= k < |bs| && bs[k] == rej.value;
    assert RejectedAt(rej.value) == t1;
    CooldownHoursInRange(t1, t2);
    assert IdentityKnown(s2.next, f, t2);
  }

  /** Adding one record that is not live to records none of which is a live
      request of the user leaves the user without a live request. */
  lemma NoLiveAfterAppend(before: seq<Borrow>, after: seq<Borrow>, userId: string)
    requires !HasLiveRequest(before, userId)
    requires |after| == |before| + 1 && !LiveRequest(after[|before|])
    requires forall i :: 0 <= i < |before| ==> after[i] == before[i]
    ensures !HasLiveRequest(after, userId)
  {
    forall i | 0 <= i < |after| && after[i].userId == userId
      ensures !LiveRequest(after[i])
    {
      if i < |before| {
        assert after[i] == before[i];
      }
    }
  }

  /** Once 24 hours have passed since the rejection, the same request goes
      through again. */
  lemma RetryAfterCooldown(s: Store, f: BorrowForm, t0: Millis, t1: Millis, t2: Millis,
                           pick: nat, pick2: nat, approver: string)
    requires Valid(s) && RequestAllowed(s, f, t0, pick)
    requires forall i :: 0 <= i < |s.borrows| ==> !IsRejectionOf(s.borrows[i], f.userId, f.bookId)
    requires t1 + MsPerDay <= t2 <= f.dueDate
    ensures var s1 := RequestBook(s, f, t0, pick);
            var s2 := ApproveRequest(s1.next, |s.borrows|, "reject", None, approver, t1);
            RequestBook(s2.next, f, t2, pick2).result.Ok?
  {
    var n := |s.borrows|;
    var s1 := RequestBook(s, f, t0, pick);
    NewRequestIsFound(s, f, t0, pick);
    var s2 := ApproveRequest(s1.next, n, "reject", None, approver, t1);
    var bs := s2.next.borrows;
    assert forall i :: 0 <= i < n ==> bs[i] == s.borrows[i];
    NoLiveAfterAppend(s.borrows, bs, f.userId);
    var rej := ChosenRejection(bs, f.userId, f.bookId, pick2);
    assert IsRejectionOf(bs[n], f.userId, f.bookId);
    assert forall i :: 0 <= i < n ==> !IsRejectionOf(bs[i], f.userId, f.bookId);
    var k :| 0 <= k < |bs| && bs[k] == rej.value;
    assert IdentityKnown(s2.next, f, t2);
  }

  /** A rejected request is never returned, so it still counts as an open
      record for the direct-borrow path: the user cannot borrow any book. */
  lemma RejectedRequestBlocksBorrow(s: Store, f: BorrowForm, g: BorrowForm, t0: Millis, t1: Millis, t2: Millis,
                                    pick: nat, approver: string)
    requires Valid(s) && RequestAllowed(s, f, t0, pick)
    requires g.userId == f.userId
    ensures var s1 := RequestBook(s, f, t0, pick);
            var s2 := ApproveRequest(s1.next, |s.borrows|, "reject", None, approver, t1);
            IdentityKnown(s2.next, g, t2) ==> BorrowBook(s2.next, g, t2).result == Err(AlreadyBorrowing)
  {
    var n := |s.borrows|;
    var s1 := RequestBook(s, f, t0, pick);
    NewRequestIsFound(s, f, t0, pick);
    var s2 := ApproveRequest(s1.next, n, "reject", None, approver, t1);
    assert s2.next.borrows[n].userId == g.userId && Unreturned(s2.next.borrows[n]);
  }

  /** The return path matches any unreturned record, a rejected request
      included: returning it puts a copy on the shelf that never left it. */
  lemma ReturningRejectedRequestAddsCopy(s: Store, f: BorrowForm, t0: Millis, t1: Millis, t2: Millis,
                                         pick: nat, approver: string)
    requires Valid(s) && RequestAllowed(s, f, t0, pick)
    ensures var s1 := RequestBook(s, f, t0, pick);
            var s2 := ApproveRequest(s1.next, |s.borrows|, "reject", None, approver, t1);
            var s3 := ReturnBook(s2.next, f.userId, f.bookId, t2);
            && s2.next.books == s.books
            && s3.result.Ok?
            && Copies(s3.next.books, f.bookId) == Copies(s.books, f.bookId) + 1
  {
    var n := |s.borrows|;
    var s1 := RequestBook(s, f, t0, pick);
    NewRequestIsFound(s, f, t0, pick);
    var s2 := ApproveRequest(s1.next, n, "reject", None, approver, t1);
    assert IsUnreturnedLoan(s2.next.borrows[n], f.userId, f.bookId);
  }

  /** A direct borrow leaves no live request behind, so the same user may
      then request a book while holding the borrowed copy. */
  lemma DirectBorrowThenRequest(s: Store, g: BorrowForm, f: BorrowForm, t0: Millis, t1: Millis, pick: nat)
    requires Valid(s) && BorrowAllowed(s, g, t0) && f.userId == g.userId
    requires IdentityKnown(s, f, t1)
    requires forall i :: 0 <= i < |s.borrows| ==> !IsRejectionOf(s.borrows[i], f.userId, f.bookId)
    ensures var s1 := BorrowBook(s, g, t0);
            var s2 := RequestBook(s1.next, f, t1, pick);
            && s1.result.Ok? && s2.result.Ok?
            && HasUnreturned(s2.next.borrows, f.userId) && HasLiveRequest(s2.next.borrows, f.userId)
  {
    var n := |s.borrows|;
    var s1 := BorrowBook(s, g, t0);
    var bs := s1.next.borrows;
    assert forall i :: 0 <= i < n ==> bs[i] == s.borrows[i];
    assert !HasLiveRequest(s.borrows, f.userId) by {
      forall i | 0 <= i < n && s.borrows[i].userId == f.userId
        ensures !LiveRequest(s.borrows[i])
      {
        assert !Unreturned(s.borrows[i]) by {
          assert !HasUnreturned(s.borrows, g.userId);
        }
      }
    }
    assert !HasLiveRequest(bs, f.userId) by {
      forall i | 0 <= i < |bs| && bs[i].userId == f.userId
        ensures !LiveRequest(bs[i])
      {
        if i < n {
          assert bs[i] == s.borrows[i];
        }
      }
    }
    assert forall i :: 0 <= i < |bs| ==> !IsRejectionOf(bs[i], f.userId, f.bookId) by {
      forall i | 0 <= i < |bs|
        ensures !IsRejectionOf(bs[i], f.userId, f.bookId)
      {
        if i < n {
          assert bs[i] == s.borrows[i];
        }
      }
    }
    assert UserMatches(s1.next, f.userId, f.username);
    assert IdentityKnown(s1.next, f, t1);
    var s2 := RequestBook(s1.next, f, t1, pick);
    assert s2.next.borrows[n].userId == f.userId && Unreturned(s2.next.borrows[n]);
    assert s2.next.borrows[n + 1].userId == f.userId && LiveRequest(s2.next.borrows[n + 1]);
  }
}

=== FILE: news.dfy ===
/** News posts with per-user read tracking: a post goes to one role or to
    every non-admin role, each post remembers which user ids have read it,
    and marking read adds the user to every post at once. */
module News {
  import opened Common
  import opened Store
  import opened Ordering

  /** The characters `String.prototype.trim` strips: the ASCII blanks and
      line breaks, no-break space, the byte-order mark and the Unicode space
      separators. */
  predicate IsSpace(c: char): (b: bool)
    ensures b ==> c as int <= 0xFFFF
    ensures c as int < 0x80 ==> (b <==> c == ' ' || '\t' <= c <= '\r')
  {
    var n := c as int;
    || n == 0x09 || n == 0x0A || n == 0x0B || n == 0x0C || n == 0x0D || n == 0x20
    || n == 0xA0 || n == 0x1680 || (0x2000 <= n <= 0x200A) || n == 0x2028 || n == 0x2029
    || n == 0x202F || n == 0x205F || n == 0x3000 || n == 0xFEFF
  }

  /** Where the text starts: the first position at or after `i` that holds
      no white space, or the end of `s`. */
  function TextStart(s: string, i: nat): (k: nat)
    requires i <= |s|
    ensures i <= k <= |s|
    ensures forall j :: i <= j < k ==> IsSpace(s[j])
    ensures k < |s| ==> !IsSpace(s[k])
    decreases |s| - i
  {
    if i < |s| && IsSpace(s[i]) then TextStart(s, i + 1) else i
  }

  /** Where the text ends: the position after the last character before `hi`
      that is no white space, but not below `lo`. */
  function TextEnd(s: string, lo: nat, hi: nat): (k: nat)
    requires lo <= hi <= |s|
    ensures lo <= k <= hi
    ensures forall j :: k <= j < hi ==> IsSpace(s[j])
    ensures k > lo ==> !IsSpace(s[k - 1])
    decreases hi
  {
    if hi > lo && IsSpace(s[hi - 1]) then TextEnd(s, lo, hi - 1) else hi
  }

  /** `r` is the slice of `s` starting at `lo`, with only white space cut
      away on either side. */
  predicate TrimmedAt(s: string, r: string, lo: int)
  {
    && 0 <= lo <= |s| - |r| && r == s[lo..lo + |r|]
    && (forall i :: 0 <= i < lo ==> IsSpace(s[i]))
    && (forall i :: lo + |r| <= i < |s| ==> IsSpace(s[i]))
  }

  /** `s` without leading and trailing white space: a slice of `s` whose
      first and last characters are not white space, everything cut away
      being white space. */
  function Trim(s: string): (r: string)
    ensures exists lo :: TrimmedAt(s, r, lo)
    ensures |r| > 0 ==> !IsSpace(r[0]) && !IsSpace(r[|r| - 1])
  {
    var lo := TextStart(s, 0);
    var hi := TextEnd(s, lo, |s|);
    assert TrimmedAt(s, s[lo..hi], lo);
    s[lo..hi]
  }

  /** Trimming twice changes nothing more. */
  lemma TrimIdempotent(s: string)
    ensures Trim(Trim(s)) == Trim(s)
  {
    var t := Trim(s);
    if |t| > 0 {
      assert TextStart(t, 0) == 0;
      assert TextEnd(t, 0, |t|) == |t|;
    }
  }

  /** The roles a post addressed to `role` reaches: "all" means every role
      but admin. */
  function Audience(role: string): (r: seq<string>)
    ensures role == "all" ==> "admin" !in r && forall x: Role :: x != Admin ==> RoleName(x) in r
    ensures role == "all" ==> |r| == 3 && forall y :: y in r ==> exists x: Role :: x != Admin && RoleName(x) == y
    ensures role != "all" ==> r == [role]
  {
    if role == "all" then
      assert RoleName(Librarian) == "librarian" && RoleName(Teacher) == "teacher" && RoleName(Student) == "student";
      ["librarian", "teacher", "student"]
    else [role]
  }

  /** The shortest post text accepted, after trimming, in UTF-16 code units. */
  const MinNewsLength: nat := 5

  /** POST /news. `newsId` is the fresh identifier the handler generates. */
  function CreateNews(s: Store, role: string, news: string, newsId: string, now: Millis): (out: Step<NewsItem>)
    ensures out.result.Err? ==> out.next == s
    ensures out.result.Ok? <==> role != "" && news != "" && JsLength(Trim(news)) >= MinNewsLength
    ensures !out.result.Ok? ==> out.result == Err(Invalid)
    ensures out.result.Ok? ==>
              var n := out.result.value;
              && out.next == s.(news := s.news + [n])
              && n.id == newsId && n.roles == Audience(role) && n.text == Trim(news)
              && n.readBy == [] && n.createdAt == now
  {
    if role == "" || news == "" || JsLength(Trim(news)) < MinNewsLength then Step(Err(Invalid), s)
    else
      var n := NewsItem(newsId, Audience(role), Trim(news), now, []);
      Step(Ok(n), s.(news := s.news + [n]))
  }

  /** A post `role` sees that `userId` has not read. */
  predicate Unread(n: NewsItem, role: string, userId: string)
  {
    role in n.roles && userId !in n.readBy
  }

  /** The posts unread for this reader, in store order: what the store's
      count query selects. */
  function UnreadFor(ns: seq<NewsItem>, role: string, userId: string): seq<NewsItem>
  {
    Filter(ns, (n: NewsItem) => Unread(n, role, userId))
  }

  /** How many posts count as unread for this reader. */
  function CountUnread(ns: seq<NewsItem>, role: string, userId: string): (c: nat)
    ensures c == |UnreadFor(ns, role, userId)|
    decreases |ns|
  {
    if |ns| == 0 then 0
    else (if Unread(ns[0], role, userId) then 1 else 0) + CountUnread(ns[1..], role, userId)
  }

  /** The count is zero exactly when nothing is unread. */
  lemma {:induction false} CountUnreadZero(ns: seq<NewsItem>, role: string, userId: string)
    ensures CountUnread(ns, role, userId) == 0 <==> forall i :: 0 <= i < |ns| ==> !Unread(ns[i], role, userId)
    decreases |ns|
  {
    if |ns| > 0 {
      CountUnreadZero(ns[1..], role, userId);
      assert forall i :: 1 <= i < |ns| ==> ns[i] == ns[1..][i - 1];
    }
  }

  /** GET /news/unread. */
  function GetUnreadCount(s: Store, role: string, userId: string): (r: Result<nat>)
    ensures role == "" || userId == "" ==> r == Err(Invalid)
    ensures r.Ok? <==> role != "" && userId != ""
    ensures r.Ok? ==> r.value <= |s.news|
    ensures r.Ok? ==> r.value == |UnreadFor(s.news, role, userId)|
    ensures r.Ok? ==> (r.value == 0 <==> forall i :: 0 <= i < |s.news| ==> !Unread(s.news[i], role, userId))
  {
    if role == "" || userId == "" then Err(Invalid)
    else
      CountUnreadZero(s.news, role, userId);
      Ok(CountUnread(s.news, role, userId))
  }

  /** The store's `$addToSet`: appends `x` unless it is already there. */
  function AddToSet(xs: seq<string>, x: string): (r: seq<string>)
    ensures x in r
    ensures forall y :: y in r <==> y in xs || y == x
    ensures x in xs ==> r == xs
    ensures x !in xs ==> r == xs + [x]
  {
    if x in xs then xs else xs + [x]
  }

  /** `$addToSet` applied to every item. */
  function MarkAll(ns: seq<NewsItem>, userId: string): (r: seq<NewsItem>)
    ensures |r| == |ns|
    ensures forall i :: 0 <= i < |r| ==> r[i] == ns[i].(readBy := AddToSet(ns[i].readBy, userId))
    decreases |ns|
  {
    if |ns| == 0 then [] else [ns[0].(readBy := AddToSet(ns[0].readBy, userId))] + MarkAll(ns[1..], userId)
  }

  /** POST /news/read: `userId` has now read every post, whatever its
      audience. */
  function MarkNewsAsRead(s: Store, userId: string): (out: Step<()>)
    ensures userId == "" ==> out == Step(Err(Invalid), s)
    ensures userId != "" ==> out.result.Ok?
    ensures out.next.users == s.users && out.next.books == s.books && out.next.borrows == s.borrows
    ensures out.next.payments == s.payments && |out.next.news| == |s.news|
    ensures out.result.Ok? ==> forall i :: 0 <= i < |s.news| ==>
              && userId in out.next.news[i].readBy
              && (forall v :: v in out.next.news[i].readBy <==> v in s.news[i].readBy || v == userId)
              && out.next.news[i] == s.news[i].(readBy := out.next.news[i].readBy)
  {
    if userId == "" then Step(Err(Invalid), s)
    else Step(Ok(()), s.(news := MarkAll(s.news, userId)))
  }

  /** No id appears twice in a post's read list. */
  predicate NoDuplicates(xs: seq<string>)
  {
    forall i, j :: 0 <= i < j < |xs| ==> xs[i] != xs[j]
  }

  lemma AddToSetNoDuplicates(xs: seq<string>, x: string)
    requires NoDuplicates(xs)
    ensures NoDuplicates(AddToSet(xs, x))
  {
  }

  /** Marking read twice is marking read once. */
  lemma MarkNewsAsReadIdempotent(s: Store, userId: string)
    ensures MarkNewsAsRead(MarkNewsAsRead(s, userId).next, userId) == MarkNewsAsRead(s, userId)
  {
    if userId != "" {
      var t := MarkNewsAsRead(s, userId).next;
      assert MarkAll(t.news, userId) == t.news;
    }
  }

  /** After `userId` marks everything read, nothing is unread for that user
      under any role. */
  lemma MarkReadClearsUnread(s: Store, userId: string, role: string)
    requires userId != "" && role != ""
    ensures GetUnreadCount(MarkNewsAsRead(s, userId).next, role, userId) == Ok(0)
  {
  }

  /** Marking read for one user leaves every other user's count as it was. */
  lemma {:induction false} MarkReadKeepsOthers(ns: seq<NewsItem>, userId: string, other: string, role: string)
    requires other != userId
    ensures CountUnread(MarkAll(ns, userId), role, other) == CountUnread(ns, role, other)
    decreases |ns|
  {
    if |ns| > 0 {
      assert MarkAll(ns, userId)[1..] == MarkAll(ns[1..], userId);
      MarkReadKeepsOthers(ns[1..], userId, other, role);
    }
  }

  /** What GET /news lists: posts for `role` matching the search, newest
      first, one page of them. */
  predicate NewsMatches(role: string, search: string, hit: NewsItem -> bool, n: NewsItem)
  {
    role in n.roles && (search == "" || hit(n))
  }

  function NewsKey(n: NewsItem): SortKey
  {
    SortKey(Some(n.createdAt), None)
  }

  function SelectedNews(ns: seq<NewsItem>, role: string, search: string, hit: NewsItem -> bool): (r: seq<NewsItem>)
    ensures forall n :: n in r <==> n in ns && NewsMatches(role, search, hit, n)
  {
    Filter(ns, (n: NewsItem) => NewsMatches(role, search, hit, n))
  }

  /** The posts a reader sees, newest first. */
  function SortedNews(ns: seq<NewsItem>, role: string, search: string, hit: NewsItem -> bool): (r: seq<NewsItem>)
    ensures SortedDesc(r, NewsKey)
    ensures multiset(r) == multiset(SelectedNews(ns, role, search, hit))
    ensures |r| == |SelectedNews(ns, role, search, hit)|
    ensures forall i :: 0 <= i < |r| ==> r[i] in ns && NewsMatches(role, search, hit, r[i])
  {
    var m := SelectedNews(ns, role, search, hit);
    var sorted := SortDesc(m, NewsKey);
    forall i | 0 <= i < |sorted|
      ensures sorted[i] in ns && NewsMatches(role, search, hit, sorted[i])
    {
      assert sorted[i] in multiset(sorted);
      assert sorted[i] in m;
    }
    sorted
  }

  /** A newest-first sequence really is ordered by creation time. */
  lemma NewestFirst(ns: seq<NewsItem>)
    requires SortedDesc(ns, NewsKey)
    ensures forall k, l :: 0 <= k < l < |ns| ==> ns[k].createdAt >= ns[l].createdAt
  {
    forall k, l | 0 <= k < l < |ns|
      ensures ns[k].createdAt >= ns[l].createdAt
    {
      assert NotBelow(NewsKey(ns[k]), NewsKey(ns[l]));
    }
  }

  /** A window of newest-first posts that all match is again newest-first
      and holds only matching posts. */
  lemma NewsPageFacts(ns: seq<NewsItem>, role: string, search: string, hit: NewsItem -> bool,
                      sorted: seq<NewsItem>, rows: seq<NewsItem>, skip: int)
    requires SortedDesc(sorted, NewsKey)
    requires forall i :: 0 <= i < |sorted| ==> sorted[i] in ns && NewsMatches(role, search, hit, sorted[i])
    requires (0 <= skip && skip + |rows| <= |sorted|) || |rows| == 0
    requires forall i :: 0 <= i < |rows| ==> rows[i] == sorted[skip + i]
    ensures forall k :: 0 <= k < |rows| ==> rows[k] in ns && NewsMatches(role, search, hit, rows[k])
    ensures forall k, l :: 0 <= k < l < |rows| ==> rows[k].createdAt >= rows[l].createdAt
  {
    forall k, l | 0 <= k < l < |rows|
      ensures rows[k].createdAt >= rows[l].createdAt
    {
      assert NotBelow(NewsKey(sorted[skip + k]), NewsKey(sorted[skip + l]));
    }
  }

  /** GET /news. */
  function GetNews(s: Store, role: string, page: int, limit: int, search: string, hit: NewsItem -> bool)
    : (r: Result<Listing<NewsItem>>)
    ensures r.Err? <==> (page - 1) * limit < 0
    ensures r.Err? ==> r.failure == StoreRejected
    ensures r.Ok? ==> r.value.total == |SelectedNews(s.news, role, search, hit)|
    ensures r.Ok? ==> limit != 0 ==> |r.value.rows| <= Abs(limit)
    ensures r.Ok? ==> forall k :: 0 <= k < |r.value.rows| ==>
              r.value.rows[k] in s.news && NewsMatches(role, search, hit, r.value.rows[k])
    ensures r.Ok? ==> forall k, l :: 0 <= k < l < |r.value.rows| ==>
              r.value.rows[k].createdAt >= r.value.rows[l].createdAt
    ensures r.Ok? ==> (page - 1) * limit + |r.value.rows| <= |SortedNews(s.news, role, search, hit)| || |r.value.rows| == 0
    ensures r.Ok? ==> |r.value.rows| == WindowSize(|SelectedNews(s.news, role, search, hit)|, page, limit)
    ensures r.Ok? ==> forall k :: 0 <= k < |r.value.rows| ==>
              r.value.rows[k] == SortedNews(s.news, role, search, hit)[(page - 1) * limit + k]
  {
    var sorted := SortedNews(s.news, role, search, hit);
    match Page(sorted, page, limit)
    case Err(e) => Err(e)
    case Ok(rows) =>
      assert |rows| == WindowSize(|SelectedNews(s.news, role, search, hit)|, page, limit);
      NewsPageFacts(s.news, role, search, hit, sorted, rows, (page - 1) * limit);
      Ok(Listing(rows, |sorted|, page, limit))
  }

  /** A post of three emoji is long enough: the minimum counts UTF-16 code
      units, and each emoji is two. */
  lemma EmojiPostAccepted(s: Store, newsId: string, now: Millis)
    ensures CreateNews(s, "student", "\U{1F600}\U{1F600}\U{1F600}", newsId, now).result.Ok?
  {
    var e := "\U{1F600}\U{1F600}\U{1F600}";
    assert !IsSpace(e[0]) && !IsSpace(e[|e| - 1]);
    assert TextStart(e, 0) == 0;
    assert TextEnd(e, 0, |e|) == |e|;
    assert Trim(e) == e[0..|e|] == e;
    JsLengthExamples();
  }
}

=== FILE: ordering.dfy ===
/** The newest-first ordering the listings ask the store for: documents are
    sorted descending on up to two timestamps, and a missing timestamp sorts
    below every present one (the store's order for null in a descending sort). */
module Ordering {
  import opened Common

  datatype SortKey = SortKey(primary: Option<int>, secondary: Option<int>)

  /** `a` is not later than `b`, with a missing value earliest of all. */
  predicate OptLe(a: Option<int>, b: Option<int>)
  {
    a.None? || (b.Some? && a.value <= b.value)
  }

  /** `a` may stand before `b` in a newest-first listing. */
  predicate NotBelow(a: SortKey, b: SortKey)
  {
    if a.primary == b.primary then OptLe(b.secondary, a.secondary)
    else OptLe(b.primary, a.primary)
  }

  lemma NotBelowTotal(a: SortKey, b: SortKey)
    ensures NotBelow(a, b) || NotBelow(b, a)
  {
  }

  lemma NotBelowTransitive(a: SortKey, b: SortKey, c: SortKey)
    requires NotBelow(a, b) && NotBelow(b, c)
    ensures NotBelow(a, c)
  {
  }

  predicate SortedDesc<T>(xs: seq<T>, key: T -> SortKey)
  {
    forall i, j :: 0 <= i < j < |xs| ==> NotBelow(key(xs[i]), key(xs[j]))
  }

  /** Every element of `xs` may follow a document whose key is `k`. */
  predicate AllBelow<T>(k: SortKey, xs: seq<T>, key: T -> SortKey)
  {
    forall i :: 0 <= i < |xs| ==> NotBelow(k, key(xs[i]))
  }

  /** Places `x` in front of the first element it is not below. */
  function Insert<T>(x: T, xs: seq<T>, key: T -> SortKey): (r: seq<T>)
    requires SortedDesc(xs, key)
    ensures SortedDesc(r, key)
    ensures multiset(r) == multiset(xs) + multiset{x}
    ensures |r| == |xs| + 1
    decreases |xs|, 0
  {
    if |xs| == 0 then [x]
    else if NotBelow(key(x), key(xs[0])) then
      assert AllBelow(key(x), xs, key) by {
        forall j | 0 < j < |xs| { NotBelowTransitive(key(x), key(xs[0]), key(xs[j])); }
      }
      assert xs == [xs[0]] + xs[1..];
      [x] + xs
    else
      NotBelowTotal(key(x), key(xs[0]));
      var tail := Insert(x, xs[1..], key);
      InsertKeepsBound(key(xs[0]), x, xs[1..], key);
      assert xs == [xs[0]] + xs[1..];
      [xs[0]] + tail
  }

  /** Inserting an element below `k` into a sequence below `k` keeps it below `k`. */
  lemma {:induction false} InsertKeepsBound<T>(k: SortKey, x: T, xs: seq<T>, key: T -> SortKey)
    requires SortedDesc(xs, key)
    requires NotBelow(k, key(x)) && AllBelow(k, xs, key)
    ensures AllBelow(k, Insert(x, xs, key), key)
    decreases |xs|, 1
  {
    if |xs| > 0 && !NotBelow(key(x), key(xs[0])) {
      InsertKeepsBound(k, x, xs[1..], key);
    }
  }

  /** Insertion sort into newest-first order. */
  function SortDesc<T>(xs: seq<T>, key: T -> SortKey): (r: seq<T>)
    ensures SortedDesc(r, key)
    ensures multiset(r) == multiset(xs)
    ensures |r| == |xs|
    decreases |xs|
  {
    if |xs| == 0 then []
    else
      assert xs == [xs[0]] + xs[1..];
      Insert(xs[0], SortDesc(xs[1..], key), key)
  }
}

=== FILE: payments.dfy ===
/** Fine payment: a quote of the fine owed, a gateway checkout whose callback
    settles the borrow, and a mobile-money path that settles at once. A
    settlement zeroes the fine, closes the borrow and puts the copy back. */
module Payments {
  import opened Common
  import opened Store
  import opened Fine
  import Borrows

  /** The payment handlers' own copy of the fine formula: the started days
      late, never below zero, times the daily rate. */
  function PaymentFine(due: Millis, now: Millis): (fine: int)
    ensures fine == CalculateFine(due, now)
  {
    var msDiff := now - due;
    var daysLate := Max(0, CeilDiv(msDiff, MsPerDay));
    daysLate * 10
  }

  /** The authenticated caller, as the access layer supplies it: the token's
      user id. The access layer passes no username, so the `username` the
      payment handlers read from the caller is always missing and the
      payment records here carry none. */
  datatype Caller = Caller(id: string)

  datatype FineQuote = FineQuote(fine: int, borrowId: BorrowId)

  /** `getFine`: the fine owed now on the caller's unreturned borrow. */
  function GetFine(s: Store, userId: string, username: string, now: Millis): (r: Result<FineQuote>)
    ensures userId == "" || username == "" ==> r == Err(Invalid)
    ensures r.Ok? <==> (userId != "" && username != "" &&
                        exists i :: 0 <= i < |s.borrows| && Borrows.IsOwnLoan(s.borrows[i], userId, username))
    ensures r.Err? && userId != "" && username != "" ==> r == Err(NoActiveBorrow)
    ensures r.Ok? ==> exists i :: 0 <= i < |s.borrows| && Borrows.IsOwnLoan(s.borrows[i], userId, username)
                        && (forall j :: 0 <= j < i ==> !Borrows.IsOwnLoan(s.borrows[j], userId, username))
                        && r.value == FineQuote(CalculateFine(s.borrows[i].dueDate, now), s.borrows[i].id)
  {
    if userId == "" || username == "" then Err(Invalid)
    else
      match FirstIndex(s.borrows, (b: Borrow) => Borrows.IsOwnLoan(b, userId, username))
      case None => Err(NoActiveBorrow)
      case Some(i) => Ok(FineQuote(PaymentFine(s.borrows[i].dueDate, now), s.borrows[i].id))
  }

  /** An amount is present and positive, and a borrow is named. */
  predicate AmountValid(amount: Option<int>, borrowId: Option<BorrowId>)
  {
    amount.Some? && amount.value > 0 && borrowId.Some?
  }

  datatype Checkout = Checkout(checkoutUrl: string, txRef: string)

  /** `initPayment`. The gateway's answer is a parameter: the checkout
      address it hands back, or `None` when the call fails. `txRef` is the
      fresh reference the handler generated. */
  function InitPayment(s: Store, caller: Caller, amount: Option<int>, borrowId: Option<BorrowId>,
                       txRef: string, gateway: Option<string>, now: Millis): (out: Step<Checkout>)
    ensures out.result.Err? ==> out.next == s
    ensures !AmountValid(amount, borrowId) ==> out.result == Err(Invalid)
    ensures AmountValid(amount, borrowId) && gateway.None? ==> out.result == Err(GatewayFailed)
    ensures out.result.Ok? <==> AmountValid(amount, borrowId) && gateway.Some?
    ensures out.result.Ok? ==>
              && out.result.value == Checkout(gateway.value, txRef)
              && out.next == s.(payments := s.payments +
                   [Payment(txRef, caller.id, amount.value, borrowId.value, None,
                            Chapa, PayPending, now)])
  {
    if !AmountValid(amount, borrowId) then Step(Err(Invalid), s)
    else if gateway.None? then Step(Err(GatewayFailed), s)
    else
      var p := Payment(txRef, caller.id, amount.value, borrowId.value, None,
                       Chapa, PayPending, now);
      Step(Ok(Checkout(gateway.value, txRef)), s.(payments := s.payments + [p]))
  }

  /** A settled borrow: fine zeroed, returned now. */
  function Settle(b: Borrow, now: Millis): (r: Borrow)
    ensures r.fine == 0 && r.returnedAt == Some(now) && r.status == Some(Returned)
    ensures r.id == b.id && r.userId == b.userId && r.bookId == b.bookId && r.dueDate == b.dueDate
  {
    b.(fine := 0, returnedAt := Some(now), status := Some(Returned))
  }

  /** Settles the first borrow with this id and returns its copy; no borrow
      with the id means no change. Nothing checks whether the borrow was
      already returned. */
  function SettleBorrow(s: Store, borrowId: BorrowId, now: Millis): (t: Store)
    ensures t.users == s.users && t.payments == s.payments && t.news == s.news
    ensures |t.borrows| == |s.borrows|
    ensures FirstIndex(s.borrows, (b: Borrow) => b.id == borrowId).None? ==> t == s
    ensures FirstIndex(s.borrows, (b: Borrow) => b.id == borrowId).Some? ==>
              var i := FirstIndex(s.borrows, (b: Borrow) => b.id == borrowId).value;
              && t.borrows == s.borrows[i := Settle(s.borrows[i], now)]
              && t.books == AddCopies(s.books, s.borrows[i].bookId, 1)
  {
    match FirstIndex(s.borrows, (b: Borrow) => b.id == borrowId)
    case None => s
    case Some(i) =>
      s.(borrows := s.borrows[i := Settle(s.borrows[i], now)],
         books := AddCopies(s.books, s.borrows[i].bookId, 1))
  }

  function FindPayment(ps: seq<Payment>, txRef: string): (r: Option<nat>)
    ensures r.Some? ==> r.value < |ps| && ps[r.value].txRef == txRef
    ensures r.Some? ==> forall j :: 0 <= j < r.value ==> ps[j].txRef != txRef
    ensures r.None? <==> forall i :: 0 <= i < |ps| ==> ps[i].txRef != txRef
  {
    FirstIndex(ps, (p: Payment) => p.txRef == txRef)
  }

  /** `verifyPayment`: the gateway reports the outcome of a checkout.
      A report of "success" completes the payment and settles its borrow;
      any other report marks the payment failed and touches no borrow. */
  function VerifyPayment(s: Store, txRef: string, status: string, now: Millis): (out: Step<()>)
    ensures out.result.Err? ==> out.next == s
    ensures txRef == "" ==> out.result == Err(Invalid)
    ensures out.result.Ok? <==> txRef != "" && FindPayment(s.payments, txRef).Some?
    ensures out.result.Err? && txRef != "" ==> out.result == Err(PaymentNotFound)
    ensures out.result.Ok? ==>
              var i := FindPayment(s.payments, txRef).value;
              && |out.next.payments| == |s.payments|
              && out.next.payments[i].status == (if status == "success" then Completed else Failed)
              && out.next.payments[i] == s.payments[i].(status := out.next.payments[i].status)
              && (forall j :: 0 <= j < |s.payments| && j != i ==> out.next.payments[j] == s.payments[j])
              && out.next.users == s.users && out.next.news == s.news
    ensures out.result.Ok? && status != "success" ==>
              out.next.borrows == s.borrows && out.next.books == s.books
    ensures out.result.Ok? && status == "success" ==>
              var p := s.payments[FindPayment(s.payments, txRef).value];
              var settled := SettleBorrow(s, p.borrowId, now);
              out.next.borrows == settled.borrows && out.next.books == settled.books
  {
    if txRef == "" then Step(Err(Invalid), s)
    else
      match FindPayment(s.payments, txRef)
      case None => Step(Err(PaymentNotFound), s)
      case Some(i) =>
        var p := s.payments[i];
        var p' := p.(status := if status == "success" then Completed else Failed);
        var s1 := s.(payments := s.payments[i := p']);
        if status == "success" then Step(Ok(()), SettleBorrow(s1, p.borrowId, now))
        else Step(Ok(()), s1)
  }

  predicate IsDigit(c: char) { '0' <= c <= '9' }

  function AllDigits(m: string): (b: bool)
    ensures b <==> forall i :: 0 <= i < |m| ==> IsDigit(m[i])
  {
    |m| == 0 || (IsDigit(m[0]) && AllDigits(m[1..]))
  }

  /** The local mobile-number pattern `^09\d{8}$`: "09" followed by exactly
      eight ASCII digits and nothing else. */
  function MobileValid(m: string): (b: bool)
    ensures b <==> |m| == 10 && m[0] == '0' && m[1] == '9' && forall i :: 2 <= i < 10 ==> IsDigit(m[i])
  {
    |m| == 10 && m[..2] == "09" && AllDigits(m[2..])
  }

  predicate IsCallersBorrow(b: Borrow, borrowId: BorrowId, userId: string)
  {
    b.id == borrowId && b.userId == userId
  }

  /** `initTelebirrPayment`: the mobile-money payment is recorded as
      completed first; then the caller's borrow with that id is settled, or
      the call ends with not-found and the payment record stays. */
  function InitTelebirrPayment(s: Store, caller: Caller, amount: Option<int>, borrowId: Option<BorrowId>,
                               mobile: Option<string>, txRef: string, now: Millis): (out: Step<string>)
    ensures !AmountValid(amount, borrowId) || mobile.None? || mobile == Some("") ==>
              out.result == Err(Invalid) && out.next == s
    ensures AmountValid(amount, borrowId) && mobile.Some? && mobile.value != "" && !MobileValid(mobile.value) ==>
              out.result == Err(InvalidMobile) && out.next == s
    ensures out.result.Ok? ==> out.result.value == txRef
    ensures AmountValid(amount, borrowId) && mobile.Some? && MobileValid(mobile.value) ==>
              var p := Payment(txRef, caller.id, amount.value, borrowId.value, mobile,
                               Telebirr, Completed, now);
              && out.next.payments == s.payments + [p]
              && out.next.users == s.users && out.next.news == s.news
              && |out.next.borrows| == |s.borrows|
    ensures AmountValid(amount, borrowId) && mobile.Some? && MobileValid(mobile.value) ==>
              var j := FirstIndex(s.borrows, (b: Borrow) => IsCallersBorrow(b, borrowId.value, caller.id));
              && (j.None? ==> out.result == Err(BorrowNotFound)
                                && out.next.borrows == s.borrows && out.next.books == s.books)
              && (j.Some? ==> out.result.Ok?
                                && out.next.borrows == s.borrows[j.value := Settle(s.borrows[j.value], now)]
                                && out.next.books == AddCopies(s.books, s.borrows[j.value].bookId, 1))
  {
    if !AmountValid(amount, borrowId) || mobile.None? || mobile.value == "" then Step(Err(Invalid), s)
    else if !MobileValid(mobile.value) then Step(Err(InvalidMobile), s)
    else
      var p := Payment(txRef, caller.id, amount.value, borrowId.value, mobile,
                       Telebirr, Completed, now);
      var s1 := s.(payments := s.payments + [p]);
      match FirstIndex(s.borrows, (b: Borrow) => IsCallersBorrow(b, borrowId.value, caller.id))
      case None => Step(Err(BorrowNotFound), s1)
      case Some(j) =>
        Step(Ok(txRef), s1.(borrows := s.borrows[j := Settle(s.borrows[j], now)],
                            books := AddCopies(s.books, s.borrows[j].bookId, 1)))
  }

  /** The callback has no already-settled check: replaying a "success" report
      for a settled borrow settles it again and puts a second copy back. */
  lemma ReplayedSuccessReturnsCopyTwice(s: Store, txRef: string, t1: Millis, t2: Millis)
    requires txRef != "" && FindPayment(s.payments, txRef).Some?
    requires var p := s.payments[FindPayment(s.payments, txRef).value];
             var j := FirstIndex(s.borrows, (b: Borrow) => b.id == p.borrowId);
             j.Some? && s.borrows[j.value].bookId in s.books
    ensures var p := s.payments[FindPayment(s.payments, txRef).value];
            var b := s.borrows[FirstIndex(s.borrows, (b: Borrow) => b.id == p.borrowId).value];
            var s1 := VerifyPayment(s, txRef, "success", t1).next;
            var s2 := VerifyPayment(s1, txRef, "success", t2).next;
            && Copies(s1.books, b.bookId) == Copies(s.books, b.bookId) + 1
            && Copies(s2.books, b.bookId) == Copies(s.books, b.bookId) + 2
  {
    var i := FindPayment(s.payments, txRef).value;
    var p := s.payments[i];
    var j := FirstIndex(s.borrows, (b: Borrow) => b.id == p.borrowId).value;
    var b := s.borrows[j];
    var s1 := VerifyPayment(s, txRef, "success", t1).next;
    FirstIndexStable(s.payments, s1.payments, (q: Payment) => q.txRef == txRef);
    assert FindPayment(s1.payments, txRef) == Some(i);
    assert s1.payments[i].borrowId == p.borrowId;
    FirstIndexStable(s.borrows, s1.borrows, (c: Borrow) => c.id == p.borrowId);
    assert s1.borrows[j].bookId == b.bookId;
  }

  /** A checkout under a fresh reference, followed by the gateway's "success"
      report for it: the new payment is completed and the named borrow is
      settled exactly as a direct settlement of the original store would. */
  lemma CheckoutThenSuccessSettles(s: Store, caller: Caller, amount: Option<int>, borrowId: Option<BorrowId>,
                                   txRef: string, gateway: Option<string>, t0: Millis, t1: Millis)
    requires AmountValid(amount, borrowId) && gateway.Some? && txRef != ""
    requires FindPayment(s.payments, txRef).None?
    ensures var s1 := InitPayment(s, caller, amount, borrowId, txRef, gateway, t0);
            var s2 := VerifyPayment(s1.next, txRef, "success", t1);
            var settled := SettleBorrow(s, borrowId.value, t1);
            && s1.result == Ok(Checkout(gateway.value, txRef))
            && s2.result.Ok?
            && |s2.next.payments| == |s.payments| + 1
            && s2.next.payments[|s.payments|].status == Completed
            && s2.next.payments[|s.payments|].borrowId == borrowId.value
            && s2.next.borrows == settled.borrows && s2.next.books == settled.books
  {
    var n := |s.payments|;
    var s1 := InitPayment(s, caller, amount, borrowId, txRef, gateway, t0).next;
    assert s1.payments[n].txRef == txRef;
    assert forall j :: 0 <= j < n ==> s1.payments[j] == s.payments[j];
    assert FindPayment(s1.payments, txRef) == Some(n);
  }
}

=== FILE: store.dfy ===
/** The documents the backend keeps (users, books, borrow records, payment
    records, news items) gathered into one store value, and the small updates
    several handlers share. */
module Store {
  import opened Common

  /** Milliseconds since the epoch. */
  type Millis = int
  /** Store-assigned identity of a borrow record. */
  type BorrowId = nat

  datatype Role = Admin | Librarian | Teacher | Student
  datatype AccountStatus = Active | Deactive

  function RoleName(r: Role): string
  {
    match r
    case Admin => "admin"
    case Librarian => "librarian"
    case Teacher => "teacher"
    case Student => "student"
  }

  /** The role a request names, if it is one of the four the backend accepts. */
  function ParseRole(s: string): (r: Option<Role>)
    ensures r.Some? ==> RoleName(r.value) == s
    ensures r.None? ==> forall x: Role :: RoleName(x) != s
  {
    if s == "admin" then Some(Admin)
    else if s == "librarian" then Some(Librarian)
    else if s == "teacher" then Some(Teacher)
    else if s == "student" then Some(Student)
    else None
  }

  lemma RoleNameRoundTrip(r: Role)
    ensures ParseRole(RoleName(r)) == Some(r)
  {
  }

  /** The stored form of a password. Hashing is a one-way primitive outside
      this model; here it is an injective tag, so comparing a password with
      its own hash succeeds and with any other password's hash fails. */
  datatype Hash = Hashed(secret: string)

  function HashPassword(p: string): Hash { Hashed(p) }

  predicate ComparePassword(p: string, h: Hash) { h == HashPassword(p) }

  lemma CompareOwnHash(p: string, q: string)
    ensures ComparePassword(p, HashPassword(p))
    ensures ComparePassword(q, HashPassword(p)) <==> p == q
  {
  }

  datatype User = User(
    id: string,
    name: string,
    username: string,
    role: Role,
    department: Option<string>,
    status: AccountStatus,
    password: Hash,
    passwordChanged: bool,
    createdAt: Millis)

  datatype Book = Book(name: string, title: string, copies: int)

  datatype BorrowStatus = Pending | Approved | Rejected | Borrowed | Returned

  function StatusName(s: BorrowStatus): string
  {
    match s
    case Pending => "pending"
    case Approved => "approved"
    case Rejected => "rejected"
    case Borrowed => "borrowed"
    case Returned => "returned"
  }

  /** One borrow attempt. A record made by the direct-borrow path has no
      `status` at all (`None`), unlike a request, which starts `Pending`. */
  datatype Borrow = Borrow(
    id: BorrowId,
    userId: string,
    username: string,
    bookId: string,
    bookName: string,
    bookTitle: string,
    status: Option<BorrowStatus>,
    requestedAt: Option<Millis>,
    borrowedAt: Option<Millis>,
    dueDate: Millis,
    returnedAt: Option<Millis>,
    fine: int,
    approvedBy: Option<string>,
    approvedAt: Option<Millis>,
    rejectionReason: Option<string>)

  datatype PayMethod = Chapa | Telebirr
  datatype PayStatus = PayPending | Completed | Failed

  datatype Payment = Payment(
    txRef: string,
    userId: string,
    amount: int,
    borrowId: BorrowId,
    mobile: Option<string>,
    via: PayMethod,
    status: PayStatus,
    createdAt: Millis)

  /** A news post; `roles` is the audience and `readBy` the user ids that have
      seen it. */
  datatype NewsItem = NewsItem(
    id: string,
    roles: seq<string>,
    text: string,
    createdAt: Millis,
    readBy: seq<string>)

  /** The books collection is keyed by book id. */
  datatype Store = Store(
    users: seq<User>,
    books: map<string, Book>,
    borrows: seq<Borrow>,
    payments: seq<Payment>,
    news: seq<NewsItem>)

  /** A handler's reply and the store it leaves behind. */
  datatype Step<T> = Step(result: Result<T>, next: Store)

  /** The copies count of a book, 0 for a book the store does not hold. */
  function Copies(books: map<string, Book>, bookId: string): int
  {
    if bookId in books then books[bookId].copies else 0
  }

  /** The store's `$inc: { copies: delta }` on the book with that id; a book
      that is not there is left absent. */
  function AddCopies(books: map<string, Book>, bookId: string, delta: int): (r: map<string, Book>)
    ensures r.Keys == books.Keys
    ensures bookId in books ==> Copies(r, bookId) == Copies(books, bookId) + delta
    ensures forall b :: b in books && b != bookId ==> r[b] == books[b]
    ensures bookId in books ==> r[bookId].name == books[bookId].name && r[bookId].title == books[bookId].title
    ensures bookId !in books ==> r == books
  {
    if bookId in books then books[bookId := books[bookId].(copies := books[bookId].copies + delta)]
    else books
  }

  /** A borrow still counted against its user by the request path: in one of
      the live request states and not returned. */
  predicate LiveRequest(b: Borrow)
  {
    b.status.Some? && b.status.value in {Pending, Approved, Borrowed} && b.returnedAt.None?
  }

  /** A record nobody has returned yet, whatever its status. */
  predicate Unreturned(b: Borrow)
  {
    b.returnedAt.None?
  }
}

=== FILE: users.dfy ===
/** User administration: creating accounts with a temporary password,
    updating them under the admin-protection rules, deleting non-admins, and
    the role-filtered user listing. */
module Users {
  import opened Common
  import opened Store

  /** The password every new account starts with. */
  const TempPassword: string := "temp123"

  /** What a reply shows of a user: everything but the password hash. */
  datatype UserView = UserView(
    id: string,
    name: string,
    username: string,
    role: Role,
    department: Option<string>,
    status: AccountStatus,
    passwordChanged: bool,
    createdAt: Millis)

  function View(u: User): (v: UserView)
    ensures v.id == u.id && v.name == u.name && v.username == u.username && v.role == u.role
    ensures v.department == u.department && v.status == u.status
    ensures v.passwordChanged == u.passwordChanged && v.createdAt == u.createdAt
  {
    UserView(u.id, u.name, u.username, u.role, u.department, u.status, u.passwordChanged, u.createdAt)
  }

  function ParseStatus(s: string): Option<AccountStatus>
  {
    if s == "active" then Some(Active) else if s == "deactive" then Some(Deactive) else None
  }

  datatype NewUserForm = NewUserForm(
    id: string,
    name: string,
    username: string,
    role: string,
    department: Option<string>,
    status: Option<string>)

  /** An id, a name of at least 2 and a username of at least 3 UTF-16 code
      units, one of the four roles, and a status (if given) of active or
      deactive. */
  predicate NewUserValid(f: NewUserForm)
  {
    && f.id != "" && JsLength(f.name) >= 2 && JsLength(f.username) >= 3
    && ParseRole(f.role).Some?
    && (f.status.None? || ParseStatus(f.status.value).Some?)
  }

  predicate IdTaken(users: seq<User>, id: string)
  {
    exists i :: 0 <= i < |users| && users[i].id == id
  }

  predicate UsernameHeld(users: seq<User>, username: string)
  {
    exists i :: 0 <= i < |users| && users[i].username == username
  }

  /** POST /users. */
  function CreateUser(s: Store, f: NewUserForm, now: Millis): (out: Step<UserView>)
    ensures out.result.Err? ==> out.next == s
    ensures out.result.Ok? <==> NewUserValid(f) && !IdTaken(s.users, f.id) && !UsernameHeld(s.users, f.username)
    ensures !NewUserValid(f) ==> out.result == Err(Invalid)
    ensures NewUserValid(f) && IdTaken(s.users, f.id) ==> out.result == Err(IdInUse)
    ensures NewUserValid(f) && !IdTaken(s.users, f.id) && UsernameHeld(s.users, f.username) ==>
              out.result == Err(UsernameTaken)
    ensures out.result.Ok? ==>
              exists u: User ::
                && out.next == s.(users := s.users + [u])
                && out.result.value == View(u)
                && u.id == f.id && u.name == f.name && u.username == f.username
                && RoleName(u.role) == f.role && u.department == f.department
                && u.status == (if f.status.None? then Active else ParseStatus(f.status.value).value)
                && u.password == HashPassword(TempPassword) && !u.passwordChanged && u.createdAt == now
  {
    if !NewUserValid(f) then Step(Err(Invalid), s)
    else if FirstIndex(s.users, (u: User) => u.id == f.id).Some? then Step(Err(IdInUse), s)
    else if FirstIndex(s.users, (u: User) => u.username == f.username).Some? then Step(Err(UsernameTaken), s)
    else
      var status := if f.status.None? then Active else ParseStatus(f.status.value).value;
      var u := User(f.id, f.name, f.username, ParseRole(f.role).value, f.department, status,
                    HashPassword(TempPassword), false, now);
      Step(Ok(View(u)), s.(users := s.users + [u]))
  }

  /** The fields an update may set; `None` leaves a field as it is. */
  datatype UserPatch = UserPatch(
    name: Option<string>,
    username: Option<string>,
    role: Option<string>,
    department: Option<string>,
    status: Option<string>)

  predicate PatchValid(p: UserPatch)
  {
    && (p.name.Some? ==> JsLength(p.name.value) >= 2)
    && (p.username.Some? ==> JsLength(p.username.value) >= 3)
    && (p.role.Some? ==> ParseRole(p.role.value).Some?)
    && (p.status.Some? ==> ParseStatus(p.status.value).Some?)
  }

  /** The supplied fields set on `u`; the id and everything else kept. */
  function ApplyPatch(u: User, p: UserPatch): (r: User)
    requires PatchValid(p)
    ensures r.id == u.id && r.password == u.password && r.passwordChanged == u.passwordChanged
    ensures r.createdAt == u.createdAt
    ensures p.name.None? ==> r.name == u.name
    ensures p.name.Some? ==> r.name == p.name.value
    ensures p.department.None? ==> r.department == u.department
    ensures p.department.Some? ==> r.department == p.department
    ensures p.username.None? ==> r.username == u.username
    ensures p.username.Some? ==> r.username == p.username.value
    ensures p.role.None? ==> r.role == u.role
    ensures p.role.Some? ==> RoleName(r.role) == p.role.value
    ensures p.status.None? ==> r.status == u.status
    ensures p.status == Some("active") ==> r.status == Active
    ensures p.status == Some("deactive") ==> r.status == Deactive
  {
    u.(name := if p.name.Some? then p.name.value else u.name,
       username := if p.username.Some? then p.username.value else u.username,
       role := if p.role.Some? then ParseRole(p.role.value).value else u.role,
       department := if p.department.Some? then p.department else u.department,
       status := if p.status.Some? then ParseStatus(p.status.value).value else u.status)
  }

  function FindUserById(users: seq<User>, id: string): (r: Option<nat>)
    ensures r.Some? ==> r.value < |users| && users[r.value].id == id
    ensures r.Some? ==> forall j :: 0 <= j < r.value ==> users[j].id != id
    ensures r.None? <==> !IdTaken(users, id)
  {
    FirstIndex(users, (u: User) => u.id == id)
  }

  /** Another user than `id` already holds `username`. */
  predicate HeldByOther(users: seq<User>, username: string, id: string)
  {
    exists i :: 0 <= i < |users| && users[i].username == username && users[i].id != id
  }

  /** PUT /users/:id. An admin keeps the admin role and cannot be
      deactivated; a new username must be free. */
  function UpdateUser(s: Store, id: string, p: UserPatch): (out: Step<UserView>)
    ensures out.result.Err? ==> out.next == s
    ensures !PatchValid(p) ==> out.result == Err(Invalid)
    ensures PatchValid(p) && !IdTaken(s.users, id) ==> out.result == Err(UserNotFound)
    ensures PatchValid(p) && IdTaken(s.users, id) ==>
              var cur := s.users[FindUserById(s.users, id).value];
              && (cur.role == Admin && p.role.Some? && p.role.value != "admin" ==>
                    out.result == Err(AdminRoleLocked))
              && (cur.role == Admin && p.status == Some("deactive") && (p.role.None? || p.role.value == "admin") ==>
                    out.result == Err(AdminCannotDeactivate))
              && (!(cur.role == Admin && p.role.Some? && p.role.value != "admin")
                  && !(cur.role == Admin && p.status == Some("deactive"))
                  && p.username.Some? && p.username.value != cur.username
                  && HeldByOther(s.users, p.username.value, id) ==>
                    out.result == Err(UsernameTaken))
    ensures out.result.Ok? ==>
              var i := FindUserById(s.users, id).value;
              var cur := s.users[i];
              && PatchValid(p)
              && out.next == s.(users := s.users[i := ApplyPatch(cur, p)])
              && out.result.value == View(ApplyPatch(cur, p))
              && (cur.role == Admin ==> out.next.users[i].role == Admin)
              && (cur.role == Admin ==> out.next.users[i].status == cur.status || out.next.users[i].status == Active)
              && (p.username.Some? && p.username.value != cur.username ==> !HeldByOther(s.users, p.username.value, id))
    ensures out.result.Ok? <==>
              PatchValid(p) && IdTaken(s.users, id)
              && var cur := s.users[FindUserById(s.users, id).value];
              && !(cur.role == Admin && p.role.Some? && p.role.value != "admin")
              && !(cur.role == Admin && p.status == Some("deactive"))
              && !(p.username.Some? && p.username.value != cur.username && HeldByOther(s.users, p.username.value, id))
  {
    if !PatchValid(p) then Step(Err(Invalid), s)
    else
      match FindUserById(s.users, id)
      case None => Step(Err(UserNotFound), s)
      case Some(i) =>
        var cur := s.users[i];
        if cur.role == Admin && p.role.Some? && p.role.value != "admin" then Step(Err(AdminRoleLocked), s)
        else if cur.role == Admin && p.status == Some("deactive") then Step(Err(AdminCannotDeactivate), s)
        else if p.username.Some? && p.username.value != cur.username
             && FirstIndex(s.users, (u: User) => u.username == p.username.value && u.id != id).Some? then
          Step(Err(UsernameTaken), s)
        else
          var u := ApplyPatch(cur, p);
          Step(Ok(View(u)), s.(users := s.users[i := u]))
  }

  /** DELETE /users/:id: removes the first user with that id unless it is an
      admin. */
  function DeleteUser(s: Store, id: string): (out: Step<()>)
    ensures out.result.Err? ==> out.next == s
    ensures !IdTaken(s.users, id) ==> out.result == Err(UserNotFound)
    ensures IdTaken(s.users, id) && s.users[FindUserById(s.users, id).value].role == Admin ==>
              out.result == Err(AdminCannotDelete)
    ensures out.result.Ok? <==> IdTaken(s.users, id) && s.users[FindUserById(s.users, id).value].role != Admin
    ensures out.result.Ok? ==>
              var i := FindUserById(s.users, id).value;
              && out.next == s.(users := s.users[..i] + s.users[i + 1..])
              && multiset(out.next.users) == multiset(s.users) - multiset{s.users[i]}
  {
    match FindUserById(s.users, id)
    case None => Step(Err(UserNotFound), s)
    case Some(i) =>
      if s.users[i].role == Admin then Step(Err(AdminCannotDelete), s)
      else
        assert s.users == s.users[..i] + [s.users[i]] + s.users[i + 1..];
        Step(Ok(()), s.(users := s.users[..i] + s.users[i + 1..]))
  }

  /** No two accounts share an id, and no two share a username. */
  predicate UniqueAccounts(users: seq<User>)
  {
    forall i, j :: 0 <= i < j < |users| ==> users[i].id != users[j].id && users[i].username != users[j].username
  }

  /** Creation refuses a taken id or username, so accounts stay unique. */
  lemma CreateUserKeepsUnique(s: Store, f: NewUserForm, now: Millis)
    requires UniqueAccounts(s.users)
    ensures UniqueAccounts(CreateUser(s, f, now).next.users)
  {
    var out := CreateUser(s, f, now);
    if out.result.Ok? {
      var us := out.next.users;
      var n := |s.users|;
      assert forall k :: 0 <= k < n ==> us[k] == s.users[k] && us[k].id != f.id && us[k].username != f.username;
      assert us[n].id == f.id && us[n].username == f.username;
    }
  }

  /** An update keeps the id and takes a new username only when no other
      account holds it, so accounts stay unique. */
  lemma UpdateUserKeepsUnique(s: Store, id: string, p: UserPatch)
    requires UniqueAccounts(s.users)
    ensures UniqueAccounts(UpdateUser(s, id, p).next.users)
  {
    var out := UpdateUser(s, id, p);
    if out.result.Ok? {
      var i := FindUserById(s.users, id).value;
      var cur := s.users[i];
      var us := out.next.users;
      forall k | 0 <= k < |us| && k != i
        ensures us[k] == s.users[k] && us[k].id != us[i].id && us[k].username != us[i].username
      {
        assert s.users[k].id != id;
      }
    }
  }

  /** Deleting an account keeps the others unique. */
  lemma DeleteUserKeepsUnique(s: Store, id: string)
    requires UniqueAccounts(s.users)
    ensures UniqueAccounts(DeleteUser(s, id).next.users)
  {
    var out := DeleteUser(s, id);
    if out.result.Ok? {
      var i := FindUserById(s.users, id).value;
      var us := out.next.users;
      assert forall k :: 0 <= k < |us| ==> us[k] == s.users[if k < i then k else k + 1];
    }
  }

  /** GET /users query; `search` matching is done by the store (`hit`), and
      an empty role means every role. */
  predicate ListingMatches(search: string, role: string, hit: User -> bool, u: User)
  {
    (search == "" || hit(u)) && (role == "" || RoleName(u.role) == role)
  }

  function SelectedUsers(users: seq<User>, search: string, role: string, hit: User -> bool): (r: seq<User>)
    ensures forall u :: u in r <==> u in users && ListingMatches(search, role, hit, u)
  {
    Filter(users, (u: User) => ListingMatches(search, role, hit, u))
  }

  function Views(users: seq<User>): (r: seq<UserView>)
    ensures |r| == |users|
    ensures forall k :: 0 <= k < |r| ==> r[k] == View(users[k])
  {
    seq(|users|, k requires 0 <= k < |users| => View(users[k]))
  }

  /** GET /users: one page of the matching users, in store order, without
      their password hashes. */
  function GetUsers(s: Store, page: int, limit: int, search: string, role: string, hit: User -> bool)
    : (r: Result<Listing<UserView>>)
    ensures r.Err? <==> (page - 1) * limit < 0
    ensures r.Err? ==> r.failure == StoreRejected
    ensures r.Ok? ==> r.value.total == |SelectedUsers(s.users, search, role, hit)|
    ensures r.Ok? ==> limit != 0 ==> |r.value.rows| <= Abs(limit)
    ensures r.Ok? ==> forall k :: 0 <= k < |r.value.rows| ==>
              exists u :: u in s.users && ListingMatches(search, role, hit, u) && r.value.rows[k] == View(u)
    ensures r.Ok? && role != "" ==> forall k :: 0 <= k < |r.value.rows| ==> RoleName(r.value.rows[k].role) == role
    ensures r.Ok? ==> (page - 1) * limit + |r.value.rows| <= |SelectedUsers(s.users, search, role, hit)| || |r.value.rows| == 0
    ensures r.Ok? ==> |r.value.rows| == WindowSize(|SelectedUsers(s.users, search, role, hit)|, page, limit)
    ensures r.Ok? ==> forall k :: 0 <= k < |r.value.rows| ==>
              r.value.rows[k] == View(SelectedUsers(s.users, search, role, hit)[(page - 1) * limit + k])
  {
    var matching := SelectedUsers(s.users, search, role, hit);
    match Page(matching, page, limit)
    case Err(e) => Err(e)
    case Ok(rows) =>
      var skip := (page - 1) * limit;
      assert |rows| == WindowSize(|matching|, page, limit);
      var views := Views(rows);
      forall k | 0 <= k < |views|
        ensures exists u :: u in s.users && ListingMatches(search, role, hit, u) && views[k] == View(u)
      {
        assert rows[k] == matching[skip + k];
        assert rows[k] in matching;
      }
      Ok(Listing(views, |matching|, page, limit))
  }
}
